=== FILE: README.md ===
# support-bot, modelled in Dafny

A model of the decision core of a Telegram support bot for a programming
school. Each private message a user sends is appended to that user's short
conversation context. The context and the message go to a language-model
classifier, which answers with a structured record: a response text, a
`requires_manager` flag, a reason and a confidence. A confidence floor of 0.8
turns weak answers into escalations. Any failure on the way becomes a fixed
fallback record. The bot then either sends the transfer notice and alerts a
manager, or sends the formatted answer and remembers it. Each user's context is
trimmed to the latest six turns.

The model covers these pieces:

| module | file | models |
|---|---|---|
| `Wrappers` | `wrappers.dfy` | `Option` and `Result` |
| `Text` | `text.dfy` | Python's `str.replace`, argument-less `str.split()`, `sep.join`, and the `str.isspace` character class |
| `Decimal` | `decimal.dfy` | `str(int)` and a parser that inverts it |
| `Cleaning` | `clean_text.dfy` | `clean_text` in `config.py` |
| `Config` | `config.dfy` | `TelegramConfig` and `OpenAIConfig`, and the message templates |
| `Prompt` | `prompt.dfy` | `format_examples` and the composition of `FINAL_SYSTEM_PROMPT` |
| `GptClient` | `gpt_client.dfy` | `GPTClient.get_response`: request assembly, the confidence floor, the exception fallback |
| `Bot` | `bot.dfy` | `handle_message` as a step over the per-user context store, reply formatting, and the chat-link choice of `notify_manager` |

Everything is functional. The context store is a `map<int, seq<Turn>>`, and
one call of `Bot.HandleMessage` is one handled message. Things the core
cannot see are parameters:

- the environment is a `map<string, string>`;
- Python's `int()` and `float()` are parsers returning `None` where Python
  raises `ValueError`;
- the classifier is a function from the request's message list to
  `Result<Decision, string>`, where the string is the text of the exception;
- the f-string rendering of the confidence is a `real -> string` function
  (see `GptClient.ApplyConfidenceFloor` under "Left out");
- `PROMPT_START` and `POST_EXAMPLES_RULES` are string parameters; the
  system prompt `get_response` sends (gpt_client.py:26) is
  `Prompt.FinalSystemPrompt(PROMPT_START, catalog, POST_EXAMPLES_RULES)`, and
  `Bot.HandleMessage` takes it as its `systemPrompt`.

Confidence is an exact `real`, so there is no NaN (see `GptClient.GetResponse`
under "Left out").

Only the confidence floor's override empties the response, so an escalated
decision can still carry text:

- the exception fallback sends the fixed, non-empty text
  `"Произошла ошибка при обработке запроса."` (`GptClient.ErrorFallback`);
- a classifier record that already escalates keeps its response text
  (`GptClient.EscalationMayKeepResponse`).

Two consequences of the code, proved here:

- `handle_message` appends the new message to the context before the
  classifier call. The request therefore carries that message twice: as the
  newest context turn, and as the closing user message
  (`GptClient.RequestRepeatsMessage`).
- `clean_text` is idempotent only on text without backslashes.
  `Cleaning.CleanTextNotIdempotent` exhibits the input `\\/`: one pass turns
  it into `\/`, and a second pass turns that into `/`.

## Model

| member | source | states |
|---|---|---|
| `Text.Words` | config.py:78 | every piece `str.split()` yields is a non-empty run of non-whitespace characters |
| `Text.Replace` | config.py:76-80 | every character of `s.replace(pat, rep)` comes from `s` or from `rep` |
| `Text.ReplaceNoLonger` | config.py:76-80 | replacing a pattern by a text no longer than it never lengthens the string |
| `Text.ReplaceAbsent` | config.py:76 | a replacement whose pattern's first character does not occur leaves the string unchanged |
| `Text.JoinSnoc` | config.py:92 | joining one more part appends the separator and that part |
| `Text.JoinLength` | config.py:78 | `sep.join(parts)` is as long as the parts together plus one separator between each two neighbours |
| `Text.WordLengthOfWord` | config.py:78 | a word followed by nothing or by whitespace is exactly the leading run `str.split()` cuts off |
| `Text.WordsAfterWord` | config.py:78 | splitting a word followed by nothing or by whitespace yields that word, then the words of the rest |
| `Text.WordsJoinRoundTrip` | config.py:78 | `" ".join(words).split()` gives the words back: splitting undoes joining with single spaces |
| `Text.JoinWordsCollapsed` | config.py:78 | joining words with single spaces gives text with no leading, trailing or repeated whitespace and no whitespace but `' '` |
| `Text.JoinWordsKeepsSignificant` | config.py:78 | collapsing whitespace keeps every character other than whitespace and backslash, in order |
| `Text.JoinWordsNoLonger` | config.py:78 | collapsing whitespace never lengthens the text |
| `Cleaning.UnescapeKeepsSignificant` | config.py:76 | undoing `\/` keeps every character other than whitespace and backslash, in order, and never lengthens the text |
| `Cleaning.DropSpaceStep` | config.py:80 | dropping the space before one mark keeps the text collapsed, keeps the marks already handled space-free, leaves none before this mark, and keeps the other characters |
| `Cleaning.CleanText` | config.py:73-81 | `clean_text` gives the words `str.split()` finds in the unescaped text, in order, separated by one space, except that a word starting with `.`, `,`, `!` or `?` is glued to the word before it |
| `Cleaning.CollapseKeepsWords` | config.py:78 | `' '.join(text.split())` has exactly the words of `text`, in order |
| `Cleaning.DropSpaceIsFilter` | config.py:80 | `replace(' ' + p, p)` for one mark `p` deletes exactly the spaces whose next character is `p` |
| `Cleaning.DropSpacesBeforeTwice` | config.py:80 | deleting the spaces before one set of marks and then before a disjoint set is the same as deleting those before both at once |
| `Cleaning.DropSpacesBeforeJoin` | config.py:78-80 | deleting the spaces before the four marks in words joined by single spaces glues each word that starts with a mark to the word before it, and keeps the other spaces |
| `Cleaning.TidyGluesWords` | config.py:78-80 | collapsing whitespace and then the four replacements give the glued word list of the text |
| `Cleaning.CleanTextSpec` | config.py:73-81 | `clean_text` never lengthens its input; its output is whitespace-normal, has no space before `.`, `,`, `!` or `?`, keeps every character other than whitespace and backslash, in order, and is the unescaped text's words glued as `Cleaning.CleanText` states |
| `Cleaning.CollapseIdentity` | config.py:78 | already whitespace-normal text survives `' '.join(text.split())` unchanged |
| `Cleaning.TidyFixedPoint` | config.py:78-80 | whitespace-normal text with no space before the four marks passes the last two steps unchanged |
| `Cleaning.CleanFixedPoint` | config.py:73-81 | such text passes `clean_text` unchanged when it has no backslash |
| `Cleaning.CleanTextAddsNoBackslash` | config.py:73-81 | `clean_text` introduces no backslash |
| `Cleaning.CleanTextIdempotent` | config.py:73-81 | on backslash-free input a second `clean_text` changes nothing |
| `Cleaning.CleanTextNotIdempotent` | config.py:76 | with backslashes a second pass can change the text: `\\/` becomes `\/`, which becomes `/` |
| `Decimal.IntToString` | bot.py:57 | `str(n)` is non-empty, starts with `-` exactly for a negative `n`, and is otherwise made of digits |
| `Decimal.NatToString` | bot.py:57 | `str(n)` of a natural number is a non-empty digit string with no leading zero |
| `Decimal.IntToStringRoundTrip` | bot.py:57 | parsing `str(n)` gives `n` back, for every integer |
| `Config.LoadTelegramConfig` | config.py:11-33 | succeeds exactly when the channel id parses, both credentials and the phone are non-empty and the channel id is not 0; the fields are the environment's values, `SESSION_NAME` defaulting to `manager_bot`; it fails with the channel-id parse error exactly when the id does not parse, with the credentials error exactly when it parses and a credential is empty, with the phone error exactly when those pass and the phone is empty, and with the channel error exactly when all of that passes and the id is 0 |
| `Config.TelegramConfigRoundTrip` | config.py:15-33 | every configuration the validation accepts is loaded back unchanged from an environment that spells it out |
| `Config.LoadOpenAIConfig` | config.py:37-53 | succeeds exactly when the four settings parse and `OPENAI_API_KEY` is set and non-empty; the defaults are `gpt-3.5-turbo`, `https://api.openai.com/v1`, `0.2`, `500`, `0.6` and `0.0`; it reports an unparsable `TEMPERATURE`, `MAX_TOKENS`, `PRESENCE_PENALTY` or `FREQUENCY_PENALTY` exactly when that setting is the first in this order that does not parse, naming the setting and its text, and the missing key exactly when all four parse and the key is unset or empty |
| `Config.OpenAIConfigRoundTrip` | config.py:40-53 | every configuration with a non-empty key loads back unchanged from an environment that spells it out, provided the number parsers read back the renderings of its own four numbers |
| `Prompt.MessageEntriesLayout` | config.py:86-90 | one entry per message, in order |
| `Prompt.ExampleEntriesCount` | config.py:84-91 | there are as many entries as messages plus dialogues |
| `Prompt.EntryAt` | config.py:84-91 | message `j` of dialogue `i` sits at that dialogue's offset plus `j`, and the separator right after its last message |
| `Prompt.ExampleEntriesLayout` | config.py:84-91 | the whole entry list holds each message's entry in catalog order, each dialogue closed by `---`, and nothing else |
| `Prompt.MessageEntryShape` | config.py:88-90 | an entry starts with `user: ` exactly for the author `Клиент`, with `assistant: ` otherwise, and ends with the text verbatim |
| `Prompt.MessageEntryRoundTrip` | config.py:88-90 | whether the author is the client, and the exact text, can be read back from an entry |
| `Prompt.LastEntryIsSeparator` | config.py:91 | a non-empty catalog's last entry is `---` |
| `Prompt.JoinedEntriesEnd` | config.py:83-92 | the joined entry list of an empty catalog is `""`, and that of a non-empty one ends with `---` |
| `Prompt.FormatExamples` | config.py:83-92 | `format_examples()` is empty exactly for an empty catalog, and otherwise ends with the `---` closing the last dialogue |
| `Prompt.FinalSystemPrompt` | config.py:186 | the final prompt starts with the preamble and ends with the closing rules, and what lies between them is exactly the serialised catalog |
| `GptClient.TurnMessage` | gpt_client.py:31-34 | a context turn becomes a `user` message when it is the user's and an `assistant` message otherwise, with the text unchanged |
| `GptClient.TurnMessages` | gpt_client.py:30-34 | the turns become messages one to one, in order |
| `GptClient.BuildRequest` | gpt_client.py:25-36 | the request is the system prompt, then the last `min(5, n)` context turns in order, then the user message, so its length is `2 + min(5, n)` |
| `GptClient.RequestRepeatsMessage` | gpt_client.py:29-36 | when the context already ends with the message, the request's last two entries are both that user message |
| `GptClient.RequestSeesOnlyRecentTurns` | gpt_client.py:29-30 | contexts that agree on their last five turns give the same request |
| `GptClient.ApplyConfidenceFloor` | gpt_client.py:49-54 | an answer below 0.8 becomes an escalation with an empty response and a reason quoting the confidence; an escalation comes back unchanged; the result escalates exactly when the record did or its confidence is below 0.8; confidence never changes; a surviving answer is the record itself, with confidence at least 0.8 |
| `GptClient.ConfidenceFloorIdempotent` | gpt_client.py:49-52 | applying the floor twice is the same as applying it once |
| `GptClient.ErrorFallback` | gpt_client.py:56-62 | the fallback escalates with zero confidence, the fixed non-empty error text, and a reason that is `Ошибка: ` followed by the error text |
| `GptClient.GetResponse` | gpt_client.py:24-62 | a failed classification gives the fallback and a decoded one goes through the floor; an answer always comes from a successful, non-escalating record with confidence at least 0.8, and keeps its text |
| `GptClient.EscalationIsSticky` | gpt_client.py:49-62 | a classifier that escalates or fails always yields an escalation |
| `GptClient.EscalationMayKeepResponse` | gpt_client.py:49-54 | an escalating record keeps a non-empty response even at low confidence |
| `Bot.ClassifierContext` | bot.py:89-102 | the classifier sees the user's stored turns, or none for an unknown user, with the new message appended as a user turn |
| `Bot.Trim` | bot.py:128-130 | trimming keeps the last `min(6, n)` turns, in order |
| `Bot.ContextAfterReply` | bot.py:106-130 | after the reply, the stored context is the latest six turns of the classifier's context, with the bot's unformatted answer appended unless the conversation was escalated |
| `Bot.NewTurns` | bot.py:93-126 | a step adds the user's turn, then the bot's answer unless it escalated |
| `Bot.Respond` | bot.py:106-130 | only the sender's entry changes, and it now exists; it grows by one turn on escalation and two on an answer, capped at six, ending with the message or the answer; escalation sends the transfer notice with default parsing and alerts the manager with the message and reason; an answer is sent formatted as HTML with no alert |
| `Bot.HandleMessage` | bot.py:81-130 | a non-private message changes nothing and sends nothing; otherwise only the sender's entry changes, to the latest six turns of the old context plus the new turns, and the reply and alert follow the decision |
| `Bot.StoreBounded` | bot.py:128-130 | storing an entry of at most six turns keeps every entry within six |
| `Bot.RespondBounded` | bot.py:128-130 | acting on any decision keeps every stored context within six turns |
| `Bot.HandleMessageBounded` | bot.py:81-130 | every step keeps every stored context within six turns |
| `Bot.TrimAppend` | bot.py:128-130 | trimming before appending loses nothing that trimming afterwards would keep |
| `Bot.RespondStoresNewTurns` | bot.py:89-130 | the sender's new entry is the trimmed old entry followed by the new turns |
| `Bot.StoreTracksLog` | bot.py:89-130 | appending turns to one user's full log, and storing the trimmed result, keeps the store equal to the latest six turns of every user's log |
| `Bot.RespondTracksLog` | bot.py:89-130 | acting on a decision keeps the store tracking the full log |
| `Bot.StepTracksLog` | bot.py:81-130 | one step keeps the store tracking the full, never-trimmed log |
| `Bot.RunTracksLog` | bot.py:81-130 | after any sequence of messages, each answered by its own, possibly different classifier, each user's stored context is exactly the last six turns of that user's whole conversation, and never longer than six |
| `Bot.FormatReply` | bot.py:116 | reply formatting adds no character but those of `<br>` |
| `Bot.FormatReplyRemovesEscapes` | bot.py:116 | no backslash-`n` pair survives reply formatting |
| `Bot.FormatReplyFirst` | bot.py:116 | formatting starts with `<` where the text starts with an escaped line break, and otherwise keeps the first character |
| `Bot.FormatReplyPlainText` | bot.py:116 | text with no backslash, real line breaks included, is sent as is |
| `Bot.ChatLink` | bot.py:54-57 | the alert's link is a `https://t.me/` link exactly when the profile has a non-empty username, and a `tg://user?id=` link exactly otherwise |
| `Bot.ChatLinkRoundTrip` | bot.py:54-57 | the alert's link names the username when the profile has a non-empty one, and the numeric user id otherwise, and can be read back as such |

## Left out

- The chat-completions call, `json.loads` and the `\/` replacement on the arguments string (gpt_client.py:38-47) are foreign calls. They form the classifier parameter.
- GptClient.GetResponse: the classifier parameter returns a well-typed record (a boolean `requires_manager`, string `response` and `reason`, a number `confidence`) or fails. A record with other types is not modelled: in the Python code a non-boolean `requires_manager` is read by its truthiness, and a non-string `response` raises only when the reply is formatted (bot.py:116).
- GptClient.GetResponse: a NaN confidence is not modelled. `json.loads` (gpt_client.py:47) accepts the literal `NaN`, and `NaN < 0.8` is false (gpt_client.py:49), so in the Python code a non-escalating record with NaN confidence comes back as an answer. The promise that an answer has confidence at least 0.8 holds only for the numbers the model's `real` covers.
- GptClient.ApplyConfidenceFloor: an integer JSON confidence is merged with the equal float. `json.loads` (gpt_client.py:47) decodes `0` to a Python `int`, which the f-string at gpt_client.py:51 prints as `0`, while `0.0` prints as `0.0`; both become the same `real` here, so the confidence's rendering in the low-confidence reason is fixed only up to that difference. The comparison with 0.8 is unaffected.
- Config.LookupEnv and Config.GetEnv: `os.getenv` is I/O, modelled as a lookup in the environment map. A variable set to the empty string still beats the default.
- Bot.HandleMessage: every transport call is taken to return. In the Python code, when `get_entity` raises, the `except` block (bot.py:75-79) names `manager_message` before it was bound and raises again, out of `handle_message`; a failing `event.respond` (bot.py:108, 117) escapes the same way. Such a step has already appended the user's turn (bot.py:93-96) and skips the trim (bot.py:128-130), and on an answer it also misses the bot's turn. Each failing step thus adds one turn, so a user whose steps keep failing (say, one whose profile `get_entity` cannot fetch, on every escalation) has a stored context that grows past six without bound until a step completes and trims it. The step here always trims.
- Bot.HandleMessageBounded and Bot.RunTracksLog: they hold for runs in which every transport call returns. When transport calls fail, the Python code breaks them without bound, not by one turn: the stored context grows by one turn per failing step, as above.
- Telethon setup, `get_entity`, `respond`, `send_message`, `main` and logging (bot.py:33-41, 51, 69-79, 132-146) are transport and I/O. A step returns the reply and the alert it would send. The profile's username is a parameter of `Bot.ChatLink`.
- The text layout of the manager alert (bot.py:59-66) is left out. Only the link choice inside it is modelled.
- Concurrency between handlers is left out. Each message is one sequential step.
- `load_dotenv`, the read of `dialogues.json` and `print(FINAL_SYSTEM_PROMPT)` (config.py:9, 70-71, 187) are I/O. The environment is a map and the catalog a value.
- The exact grammar of Python's `int()` and `float()`, NaN and infinities, and the float's f-string rendering are parameters.
- `model_settings` (config.py:55-63) only repackages the parsed settings.
- The texts of `PROMPT_START`, `POST_EXAMPLES_RULES` and the `FUNCTIONS` schema (config.py:95-183, 195-222) are fixed data. They are parameters, or not modelled.
- `Config.ErrorNotice` (config.py:191) is defined but never sent.
- `clean_text` (config.py:73-81) is defined but called nowhere, neither in `config.py` nor in `bot.py` or `gpt_client.py`: the bot never cleans the catalog, the text it receives or the text it sends. `Cleaning` models the function on its own.
- `context=None` in `get_response` behaves like an empty context. The bot always passes a list.
- The determinism of `format_examples` needs no lemma: every Dafny function is deterministic.
- The tests and `cli_chat.py` drive a live model and are not part of this model.

=== FILE: bot.dfy ===
/** The message handler: one step per incoming message over the per-user
    context store, the choice between a transfer notice and a formatted
    answer, and the link the manager alert points to.

    Sending replies, fetching the user's profile and posting the alert are
    transport calls; a step returns what it would send instead. */
module Bot {
  import opened Wrappers
  import opened Text
  import Decimal
  import Config
  import opened GptClient

  /** The per-user context store: sender id to that user's recent turns,
      oldest first. */
  type Contexts = map<int, seq<Turn>>

  /** How many turns the store keeps per user. */
  const ContextCap := 6

  /** An incoming message: whether it came from a private chat, who sent
      it and its text. */
  datatype Event = Event(isPrivate: bool, senderId: int, text: string)

  /** How a reply is rendered: the transport's default, or HTML. */
  datatype ParseMode = DefaultMode | Html

  datatype Reply = Reply(text: string, mode: ParseMode)

  /** What `notify_manager` is called with. */
  datatype Alert = Alert(userId: int, message: string, reason: string)

  /** The outcome of one step: the new store, the reply sent to the user,
      and the manager alert, if any. */
  datatype Step = Step(contexts: Contexts, reply: Option<Reply>, alert: Option<Alert>)

  /** The user's stored turns; an unknown user starts with none. */
  function ContextOf(contexts: Contexts, userId: int): seq<Turn> {
    if userId in contexts then contexts[userId] else []
  }

  /** The context the classifier gets: the user's stored turns with the new
      message appended as a user turn. */
  function ClassifierContext(contexts: Contexts, userId: int, message: string): (ctx: seq<Turn>)
    ensures |ctx| == |ContextOf(contexts, userId)| + 1
    ensures ctx[..|ctx| - 1] == ContextOf(contexts, userId)
    ensures ctx[|ctx| - 1] == Turn(true, message)
  {
    ContextOf(contexts, userId) + [Turn(true, message)]
  }

  /** The clean-up at the end of a step: beyond six turns only the latest
      six are kept. The result is the longest suffix of at most six turns. */
  function Trim(turns: seq<Turn>): (r: seq<Turn>)
    ensures |r| == Min(ContextCap, |turns|)
    ensures r == turns[|turns| - |r|..]
  {
    if |turns| > ContextCap then turns[|turns| - ContextCap..] else turns
  }

  /** `response.replace('\\n', '<br>')`: the two characters backslash and
      `n` become an HTML line break, and no other character is added. */
  function FormatReply(response: string): (r: string)
    ensures forall c :: c in r ==> c in response || c in "<br>"
  {
    Replace(response, "\\n", "<br>")
  }

  /** The store entry after the reply: on an answer the bot turn (holding
      the unformatted response) is appended to the classifier's context, and
      the result is trimmed. Either way it is the latest turns of that
      extended context, the bot turn last on an answer. */
  function ContextAfterReply(context: seq<Turn>, d: Decision): (r: seq<Turn>)
    ensures var extended := if d.requiresManager then context else context + [Turn(false, d.response)];
      && |r| == Min(ContextCap, |extended|)
      && r == extended[|extended| - |r|..]
    ensures !d.requiresManager ==> r[|r| - 1] == Turn(false, d.response)
  {
    Trim(if d.requiresManager then context else context + [Turn(false, d.response)])
  }

  /** The part of `handle_message` after the classifier has decided: store
      the sender's trimmed context, then send either the transfer notice and
      a manager alert, or the formatted answer. Only the sender's entry
      changes, and it now exists. */
  function Respond(contexts: Contexts, uid: int, message: string, d: Decision): (r: Step)
    ensures uid in r.contexts && r.contexts == contexts[uid := r.contexts[uid]]
    // it holds at most six turns, from the old ones plus one or two new
    ensures |r.contexts[uid]| == Min(ContextCap, |ContextOf(contexts, uid)| + if d.requiresManager then 1 else 2)
    ensures r.contexts[uid][|r.contexts[uid]| - 1] ==
      (if d.requiresManager then Turn(true, message) else Turn(false, d.response))
    // the transfer notice and an alert, or the formatted answer
    ensures d.requiresManager ==>
      && r.reply == Some(Reply(Config.TransferToManager, DefaultMode))
      && r.alert == Some(Alert(uid, message, d.reason))
    ensures !d.requiresManager ==>
      && r.reply == Some(Reply(FormatReply(d.response), Html))
      && r.alert == None
  {
    var context := ClassifierContext(contexts, uid, message);
    var stored := ContextAfterReply(context, d);
    if d.requiresManager then
      Step(contexts[uid := stored],
           Some(Reply(Config.TransferToManager, DefaultMode)),
           Some(Alert(uid, message, d.reason)))
    else
      Step(contexts[uid := stored],
           Some(Reply(FormatReply(d.response), Html)),
           None)
  }

  /** `handle_message(event)`: messages outside private chats are ignored;
      otherwise the classifier sees the stored context with the new message
      appended, and its decision is acted on. */
  function HandleMessage(contexts: Contexts, event: Event, systemPrompt: string,
                         classify: Classifier, showConfidence: real -> string): (r: Step)
    // only private messages are handled
    ensures !event.isPrivate ==> r == Step(contexts, None, None)
    // only the sender's entry changes, and it now exists
    ensures event.isPrivate ==>
      && event.senderId in r.contexts
      && r.contexts == contexts[event.senderId := r.contexts[event.senderId]]
    ensures event.isPrivate ==>
      var uid := event.senderId;
      var d := GetResponse(systemPrompt, event.text, ClassifierContext(contexts, uid, event.text),
                           classify, showConfidence);
      // the latest six turns of the old context and the new ones
      && r.contexts[uid] == Trim(ContextOf(contexts, uid) + NewTurns(event.text, d))
      // the transfer notice and an alert, or the formatted answer
      && r.reply == Some(if d.requiresManager then Reply(Config.TransferToManager, DefaultMode)
                         else Reply(FormatReply(d.response), Html))
      && r.alert == (if d.requiresManager then Some(Alert(uid, event.text, d.reason)) else None)
  {
    if !event.isPrivate then Step(contexts, None, None)
    else
      var context := ClassifierContext(contexts, event.senderId, event.text);
      var d := GetResponse(systemPrompt, event.text, context, classify, showConfidence);
      RespondStoresNewTurns(contexts, event.senderId, event.text, d);
      Respond(contexts, event.senderId, event.text, d)
  }

  // ---------------------------------------------------------------------
  // The store stays bounded and tracks the full conversation
  // ---------------------------------------------------------------------

  /** Every user's stored context is within the cap. */
  ghost predicate Bounded(contexts: Contexts) {
    forall u :: u in contexts ==> |contexts[u]| <= ContextCap
  }

  /** Storing an entry within the cap keeps the store bounded. */
  lemma StoreBounded(contexts: Contexts, uid: int, entry: seq<Turn>)
    requires Bounded(contexts) && |entry| <= ContextCap
    ensures Bounded(contexts[uid := entry])
  {
  }

  /** Acting on a decision keeps the store bounded. */
  lemma RespondBounded(contexts: Contexts, uid: int, message: string, d: Decision)
    requires Bounded(contexts)
    ensures Bounded(Respond(contexts, uid, message, d).contexts)
  {
    var next := Respond(contexts, uid, message, d).contexts;
    StoreBounded(contexts, uid, next[uid]);
  }

  /** A step keeps the store bounded, whatever it started from. */
  lemma HandleMessageBounded(contexts: Contexts, event: Event, systemPrompt: string,
                             classify: Classifier, showConfidence: real -> string)
    requires Bounded(contexts)
    ensures Bounded(HandleMessage(contexts, event, systemPrompt, classify, showConfidence).contexts)
  {
    if event.isPrivate {
      var d := GetResponse(systemPrompt, event.text,
                           ClassifierContext(contexts, event.senderId, event.text),
                           classify, showConfidence);
      RespondBounded(contexts, event.senderId, event.text, d);
    }
  }

  /** The turns acting on a decision adds to the sender's conversation, as
      a log that is never trimmed would record them: the user's message, and
      the bot's answer unless the conversation was escalated. */
  function NewTurns(message: string, d: Decision): (turns: seq<Turn>)
    ensures |turns| == if d.requiresManager then 1 else 2
    ensures turns[0] == Turn(true, message)
    ensures !d.requiresManager ==> turns[1] == Turn(false, d.response)
  {
    [Turn(true, message)] + (if d.requiresManager then [] else [Turn(false, d.response)])
  }

  /** The turns one step adds; nothing outside private chats. */
  function StepTurns(contexts: Contexts, event: Event, systemPrompt: string,
                     classify: Classifier, showConfidence: real -> string): seq<Turn>
  {
    if !event.isPrivate then []
    else
      NewTurns(event.text, GetResponse(systemPrompt, event.text,
                                       ClassifierContext(contexts, event.senderId, event.text),
                                       classify, showConfidence))
  }

  /** The full log: every turn of every conversation, never trimmed. */
  function Record(log: Contexts, userId: int, turns: seq<Turn>): Contexts {
    if turns == [] then log else log[userId := ContextOf(log, userId) + turns]
  }

  /** The store holds, for every user, exactly the latest turns of that
      user's full log. */
  ghost predicate Tracks(contexts: Contexts, log: Contexts) {
    && contexts.Keys == log.Keys
    && forall u :: u in contexts ==> contexts[u] == Trim(log[u])
  }

  /** Trimming early loses nothing that trimming late would keep. */
  lemma TrimAppend(a: seq<Turn>, b: seq<Turn>)
    ensures Trim(Trim(a) + b) == Trim(a + b)
  {
    var t := Trim(a);
    assert t + b == (a + b)[|a| - |t|..];
  }

  /** The sender's new entry is the trimmed old entry with the new turns. */
  lemma RespondStoresNewTurns(contexts: Contexts, uid: int, message: string, d: Decision)
    ensures Respond(contexts, uid, message, d).contexts[uid] ==
            Trim(ContextOf(contexts, uid) + NewTurns(message, d))
  {
    var context := ClassifierContext(contexts, uid, message);
    if d.requiresManager {
      assert context == ContextOf(contexts, uid) + NewTurns(message, d);
    } else {
      assert context + [Turn(false, d.response)] == ContextOf(contexts, uid) + NewTurns(message, d);
    }
  }

  /** Appending turns to a user's log and storing the trimmed result keeps
      the store tracking the log. */
  lemma StoreTracksLog(contexts: Contexts, log: Contexts, uid: int, turns: seq<Turn>)
    requires Tracks(contexts, log) && turns != []
    ensures Tracks(contexts[uid := Trim(ContextOf(contexts, uid) + turns)], Record(log, uid, turns))
  {
    TrimAppend(ContextOf(log, uid), turns);
    assert ContextOf(contexts, uid) == Trim(ContextOf(log, uid));
  }

  /** Acting on a decision keeps the store equal to the latest turns of the
      full log. */
  lemma RespondTracksLog(contexts: Contexts, log: Contexts, uid: int, message: string, d: Decision)
    requires Tracks(contexts, log)
    ensures Tracks(Respond(contexts, uid, message, d).contexts, Record(log, uid, NewTurns(message, d)))
  {
    RespondStoresNewTurns(contexts, uid, message, d);
    StoreTracksLog(contexts, log, uid, NewTurns(message, d));
  }

  /** One step keeps the store equal to the latest turns of the full log. */
  lemma StepTracksLog(contexts: Contexts, log: Contexts, event: Event, systemPrompt: string,
                      classify: Classifier, showConfidence: real -> string)
    requires Tracks(contexts, log)
    ensures Tracks(HandleMessage(contexts, event, systemPrompt, classify, showConfidence).contexts,
                   Record(log, event.senderId,
                          StepTurns(contexts, event, systemPrompt, classify, showConfidence)))
  {
    if event.isPrivate {
      var d := GetResponse(systemPrompt, event.text,
                           ClassifierContext(contexts, event.senderId, event.text),
                           classify, showConfidence);
      RespondTracksLog(contexts, log, event.senderId, event.text, d);
    }
  }

  /** Handles a whole sequence of messages, one after the other. The
      language model is sampled afresh for every message, so each message
      gets its own classifier: the same request may be answered differently
      at different points of the run. */
  function Run(contexts: Contexts, events: seq<Event>, systemPrompt: string,
               classifiers: seq<Classifier>, showConfidence: real -> string): Contexts
    requires |classifiers| == |events|
    decreases |events|
  {
    if |events| == 0 then contexts
    else Run(HandleMessage(contexts, events[0], systemPrompt, classifiers[0], showConfidence).contexts,
             events[1..], systemPrompt, classifiers[1..], showConfidence)
  }

  /** The full log of the same run. */
  function RunLog(contexts: Contexts, log: Contexts, events: seq<Event>, systemPrompt: string,
                  classifiers: seq<Classifier>, showConfidence: real -> string): Contexts
    requires |classifiers| == |events|
    decreases |events|
  {
    if |events| == 0 then log
    else
      var step := HandleMessage(contexts, events[0], systemPrompt, classifiers[0], showConfidence);
      RunLog(step.contexts,
             Record(log, events[0].senderId,
                    StepTurns(contexts, events[0], systemPrompt, classifiers[0], showConfidence)),
             events[1..], systemPrompt, classifiers[1..], showConfidence)
  }

  /** However many messages arrive, and however the classifier answers each
      of them, each user's stored context is exactly the last six turns of
      that user's whole conversation, and so never longer than six. */
  lemma {:induction false} RunTracksLog(contexts: Contexts, log: Contexts, events: seq<Event>,
                                        systemPrompt: string, classifiers: seq<Classifier>,
                                        showConfidence: real -> string)
    requires Tracks(contexts, log)
    requires |classifiers| == |events|
    ensures Tracks(Run(contexts, events, systemPrompt, classifiers, showConfidence),
                   RunLog(contexts, log, events, systemPrompt, classifiers, showConfidence))
    ensures Bounded(Run(contexts, events, systemPrompt, classifiers, showConfidence))
    decreases |events|
  {
    if |events| > 0 {
      var classify := classifiers[0];
      var step := HandleMessage(contexts, events[0], systemPrompt, classify, showConfidence);
      StepTracksLog(contexts, log, events[0], systemPrompt, classify, showConfidence);
      RunTracksLog(step.contexts,
                   Record(log, events[0].senderId,
                          StepTurns(contexts, events[0], systemPrompt, classify, showConfidence)),
                   events[1..], systemPrompt, classifiers[1..], showConfidence);
    }
  }

  // ---------------------------------------------------------------------
  // Reply formatting
  // ---------------------------------------------------------------------

  /** No escaped line break survives formatting. */
  lemma {:induction false} FormatReplyRemovesEscapes(response: string)
    ensures forall i :: 0 <= i < |FormatReply(response)| - 1 ==>
      !(FormatReply(response)[i] == '\\' && FormatReply(response)[i + 1] == 'n')
    decreases |response|
  {
    var r := FormatReply(response);
    if |response| < 2 {
    } else if response[..2] == "\\n" {
      FormatReplyRemovesEscapes(response[2..]);
      assert r == "<br>" + FormatReply(response[2..]);
      forall i | 0 <= i < |r| - 1 && r[i] == '\\'
        ensures r[i + 1] != 'n'
      {
        assert i >= 4;
        assert r[i] == FormatReply(response[2..])[i - 4];
      }
    } else {
      var rest := FormatReply(response[1..]);
      FormatReplyRemovesEscapes(response[1..]);
      assert r == [response[0]] + rest;
      if response[0] == '\\' {
        assert response[1] != 'n';
        FormatReplyFirst(response[1..]);
      }
      forall i | 0 <= i < |r| - 1 && r[i] == '\\'
        ensures r[i + 1] != 'n'
      {
        if i > 0 {
          assert r[i] == rest[i - 1] && r[i + 1] == rest[i];
        }
      }
    }
  }

  /** Formatting starts with `<` where the text starts with an escape, and
      otherwise keeps the first character. */
  lemma FormatReplyFirst(response: string)
    requires |response| > 0
    ensures |FormatReply(response)| > 0
    ensures FormatReply(response)[0] == (if |response| >= 2 && response[..2] == "\\n" then '<' else response[0])
  {
  }

  /** Text without backslashes, real line breaks included, is sent as is. */
  lemma FormatReplyPlainText(response: string)
    requires '\\' !in response
    ensures FormatReply(response) == response
  {
    ReplaceAbsent(response, "\\n", "<br>");
  }

  // ---------------------------------------------------------------------
  // The manager alert's chat link
  // ---------------------------------------------------------------------

  const UsernameLinkPrefix := "https://t.me/"
  const UserIdLinkPrefix := "tg://user?id="

  /** The link to the user's chat: by username when the profile has a
      non-empty one, otherwise by numeric id. */
  function ChatLink(userId: int, username: Option<string>): (r: string)
    ensures StartsWith(r, UsernameLinkPrefix) <==> username.Some? && username.value != ""
    ensures StartsWith(r, UserIdLinkPrefix) <==> !(username.Some? && username.value != "")
  {
    if username.Some? && username.value != "" then UsernameLinkPrefix + username.value
    else UserIdLinkPrefix + Decimal.IntToString(userId)
  }

  /** Whom a chat link points to. */
  datatype LinkTarget = ByUsername(username: string) | ByUserId(userId: int)

  /** Reads a chat link back. */
  function ParseChatLink(link: string): Option<LinkTarget> {
    if StartsWith(link, UsernameLinkPrefix) && |link| > |UsernameLinkPrefix| then
      Some(ByUsername(link[|UsernameLinkPrefix|..]))
    else if StartsWith(link, UserIdLinkPrefix) then
      match Decimal.ParseInt(link[|UserIdLinkPrefix|..])
      case Some(id) => Some(ByUserId(id))
      case None => None
    else None
  }

  /** The link identifies the user: it names the username exactly when there
      is a non-empty one, and the id otherwise. */
  lemma ChatLinkRoundTrip(userId: int, username: Option<string>)
    ensures ParseChatLink(ChatLink(userId, username)) ==
      if username.Some? && username.value != "" then Some(ByUsername(username.value))
      else Some(ByUserId(userId))
  {
    var link := ChatLink(userId, username);
    if username.Some? && username.value != "" {
      assert link[..|UsernameLinkPrefix|] == UsernameLinkPrefix;
      assert link[|UsernameLinkPrefix|..] == username.value;
    } else {
      Decimal.IntToStringRoundTrip(userId);
      assert link[..|UserIdLinkPrefix|] == UserIdLinkPrefix;
      assert link[0] != UsernameLinkPrefix[0];
      assert link[|UserIdLinkPrefix|..] == Decimal.IntToString(userId);
    }
  }
}

=== FILE: clean_text.dfy ===
/** `clean_text` from the configuration module: three rounds of Python
    string operations that undo escaped slashes, collapse whitespace and pull
    punctuation up to the preceding word. */
module Cleaning {
  import opened Text

  /** Step 1: `text.replace('\\/', '/')`, undoing JSON's escaped slash. */
  function Unescape(text: string): string {
    Replace(text, "\\/", "/")
  }

  /** Step 2: `' '.join(text.split())`. */
  function CollapseWhitespace(text: string): string {
    Join(Words(text), " ")
  }

  /** One replacement of step 3: `text.replace(' ' + p, p)`. */
  function DropSpaceBefore(text: string, p: char): string {
    Replace(text, [' ', p], [p])
  }

  /** Steps 2 and 3: collapse whitespace runs, then drop the space in front
      of `.`, `,`, `!` and `?`, in that order. */
  function Tidy(text: string): string {
    var collapsed := CollapseWhitespace(text);
    DropSpaceBefore(DropSpaceBefore(DropSpaceBefore(DropSpaceBefore(collapsed, '.'), ','), '!'), '?')
  }

  /** `clean_text(text)`: the words of the unescaped text, separated by one
      space except where a word starts with one of the four marks. */
  function CleanText(text: string): (r: string)
    ensures r == GlueWords(Words(Unescape(text)))
  {
    TidyGluesWords(Unescape(text));
    Tidy(Unescape(text))
  }

  /** The marks step 3 pulls up to the preceding word. */
  const Marks: set<char> := {'.', ',', '!', '?'}

  /** Words joined by single spaces, except that a word starting with one of
      the four marks follows the word before it directly. */
  function GlueWords(ws: seq<string>): string {
    if |ws| == 0 then ""
    else if |ws| == 1 then ws[0]
    else ws[0] + (if |ws[1]| > 0 && ws[1][0] in Marks then "" else " ") + GlueWords(ws[1..])
  }

  /** Deletes every space whose successor in `s` is one of `marks`, keeping
      everything else in order. */
  function DropSpacesBefore(s: string, marks: set<char>): string
    decreases |s|
  {
    if |s| == 0 then ""
    else if s[0] == ' ' && |s| > 1 && s[1] in marks then DropSpacesBefore(s[1..], marks)
    else [s[0]] + DropSpacesBefore(s[1..], marks)
  }

  /** No space before any of the four punctuation marks step 3 handles. */
  ghost predicate NoSpaceBeforePunctuation(s: string) {
    NoSpaceBefore(s, '.') && NoSpaceBefore(s, ',') && NoSpaceBefore(s, '!') && NoSpaceBefore(s, '?')
  }

  // ---------------------------------------------------------------------
  // Step 1
  // ---------------------------------------------------------------------

  /** Unescaping only deletes a backslash in front of a slash. */
  lemma {:induction false} UnescapeKeepsSignificant(text: string)
    ensures Significant(Unescape(text)) == Significant(text)
    ensures |Unescape(text)| <= |text|
    decreases |text|
  {
    ReplaceNoLonger(text, "\\/", "/");
    if |text| < 2 {
    } else if text[..2] == "\\/" {
      UnescapeKeepsSignificant(text[2..]);
      assert text == "\\/" + text[2..];
      SignificantConcat("\\/", text[2..]);
      SignificantConcat("/", Unescape(text[2..]));
    } else {
      UnescapeKeepsSignificant(text[1..]);
      assert text == [text[0]] + text[1..];
      SignificantConcat([text[0]], text[1..]);
      SignificantConcat([text[0]], Unescape(text[1..]));
    }
  }

  // ---------------------------------------------------------------------
  // Step 3
  // ---------------------------------------------------------------------

  /** `DropSpaceBefore` consumes a matched space-and-mark pair at once, and
      otherwise copies one character. */
  lemma DropSpaceBeforeUnfold(s: string, p: char)
    ensures DropSpaceBefore(s, p) ==
      if |s| < 2 then s
      else if s[0] == ' ' && s[1] == p then [p] + DropSpaceBefore(s[2..], p)
      else [s[0]] + DropSpaceBefore(s[1..], p)
  {
    if |s| >= 2 {
      assert s[..2] == [' ', p] <==> s[0] == ' ' && s[1] == p;
    }
  }

  /** Dropping spaces never lengthens the text, keeps its last character,
      and keeps its first character unless that is a space. */
  lemma {:induction false} DropSpaceShape(s: string, p: char)
    ensures |DropSpaceBefore(s, p)| <= |s|
    ensures |s| > 0 ==> |DropSpaceBefore(s, p)| > 0
    ensures |s| > 0 ==> DropSpaceBefore(s, p)[|DropSpaceBefore(s, p)| - 1] == s[|s| - 1]
    ensures |s| > 0 && s[0] != ' ' ==> DropSpaceBefore(s, p)[0] == s[0]
    decreases |s|
  {
    DropSpaceBeforeUnfold(s, p);
    if |s| < 2 {
    } else if s[0] == ' ' && s[1] == p {
      DropSpaceShape(s[2..], p);
    } else {
      DropSpaceShape(s[1..], p);
    }
  }

  /** A space may stand before `q` in `[x] + t` only at the junction or
      inside `t`. */
  lemma ConsNoSpaceBefore(x: char, t: string, q: char)
    requires NoSpaceBefore(t, q)
    requires x == ' ' && |t| > 0 ==> t[0] != q
    ensures NoSpaceBefore([x] + t, q)
  {
    var s := [x] + t;
    forall i | 0 <= i < |s| - 1 && s[i] == ' '
      ensures s[i + 1] != q
    {
      if i > 0 {
        assert s[i] == t[i - 1] && s[i + 1] == t[i];
      }
    }
  }

  /** Dropping the spaces before `p` from text without double spaces leaves
      no space before `p` and creates none before any other character:
      the space in front of `q` is gone when `q` is `p`, and is not made up
      when `s` had none before `q`. With `q == ' '` this says that no double
      space appears. */
  lemma {:induction false} DropSpaceKeepsNoSpaceBefore(s: string, p: char, q: char)
    requires p != ' '
    requires NoSpaceBefore(s, ' ')
    requires q == p || NoSpaceBefore(s, q)
    ensures NoSpaceBefore(DropSpaceBefore(s, p), q)
    decreases |s|
  {
    DropSpaceBeforeUnfold(s, p);
    if |s| < 2 {
    } else if s[0] == ' ' && s[1] == p {
      DropSpaceKeepsNoSpaceBefore(s[2..], p, q);
      ConsNoSpaceBefore(p, DropSpaceBefore(s[2..], p), q);
    } else {
      DropSpaceKeepsNoSpaceBefore(s[1..], p, q);
      if s[0] == ' ' {
        assert s[1] != ' ';
        DropSpaceShape(s[1..], p);
        assert DropSpaceBefore(s[1..], p)[0] == s[1];
      }
      ConsNoSpaceBefore(s[0], DropSpaceBefore(s[1..], p), q);
    }
  }

  /** Dropping spaces introduces no other whitespace character. */
  lemma {:induction false} DropSpaceKeepsPlainSpaces(s: string, p: char)
    requires OnlyPlainSpaces(s)
    requires !IsSpace(p)
    ensures OnlyPlainSpaces(DropSpaceBefore(s, p))
    decreases |s|
  {
    DropSpaceBeforeUnfold(s, p);
    if |s| < 2 {
    } else if s[0] == ' ' && s[1] == p {
      DropSpaceKeepsPlainSpaces(s[2..], p);
    } else {
      DropSpaceKeepsPlainSpaces(s[1..], p);
    }
  }

  /** Dropping a space before a mark keeps every significant character. */
  lemma {:induction false} DropSpaceKeepsSignificant(s: string, p: char)
    ensures Significant(DropSpaceBefore(s, p)) == Significant(s)
    decreases |s|
  {
    DropSpaceBeforeUnfold(s, p);
    if |s| < 2 {
    } else if s[0] == ' ' && s[1] == p {
      DropSpaceKeepsSignificant(s[2..], p);
      assert s == [' ', p] + s[2..];
      SignificantConcat([' ', p], s[2..]);
      SignificantConcat([p], DropSpaceBefore(s[2..], p));
    } else {
      DropSpaceKeepsSignificant(s[1..], p);
      assert s == [s[0]] + s[1..];
      SignificantConcat([s[0]], s[1..]);
      SignificantConcat([s[0]], DropSpaceBefore(s[1..], p));
    }
  }

  /** One punctuation step on whitespace-normal text: it stays
      whitespace-normal, keeps its significant characters, gets no longer,
      loses every space before `p`, and keeps every `NoSpaceBefore` it had. */
  lemma DropSpaceStep(s: string, p: char)
    requires Collapsed(s)
    requires p in ".,!?"
    ensures var r := DropSpaceBefore(s, p);
      && Collapsed(r)
      && NoSpaceBefore(r, p)
      && Significant(r) == Significant(s)
      && |r| <= |s|
      && (forall q :: NoSpaceBefore(s, q) ==> NoSpaceBefore(r, q))
  {
    var r := DropSpaceBefore(s, p);
    assert NoSpaceBefore(s, ' ');
    DropSpaceShape(s, p);
    DropSpaceKeepsNoSpaceBefore(s, p, ' ');
    DropSpaceKeepsNoSpaceBefore(s, p, p);
    DropSpaceKeepsPlainSpaces(s, p);
    DropSpaceKeepsSignificant(s, p);
    forall q | NoSpaceBefore(s, q)
      ensures NoSpaceBefore(r, q)
    {
      DropSpaceKeepsNoSpaceBefore(s, p, q);
    }
  }

  // ---------------------------------------------------------------------
  // Step 3 as one filter over the joined words
  // ---------------------------------------------------------------------

  /** One replacement of step 3 deletes exactly the spaces standing right
      before its mark. */
  lemma {:induction false} DropSpaceIsFilter(s: string, p: char)
    requires p != ' '
    ensures DropSpaceBefore(s, p) == DropSpacesBefore(s, {p})
    decreases |s|
  {
    if |s| < 2 {
    } else if s[..2] == [' ', p] {
      DropSpaceIsFilter(s[2..], p);
      assert s[1..][1..] == s[2..];
    } else {
      DropSpaceIsFilter(s[1..], p);
    }
  }

  /** The first character the filter keeps: the mark a leading space is
      dropped for, or else the first character itself. */
  lemma DropSpacesBeforeHead(u: string, marks: set<char>)
    requires |u| > 0 && ' ' !in marks
    ensures |DropSpacesBefore(u, marks)| > 0
    ensures DropSpacesBefore(u, marks)[0] ==
      if u[0] == ' ' && |u| > 1 && u[1] in marks then u[1] else u[0]
  {
    if u[0] == ' ' && |u| > 1 && u[1] in marks {
      assert u[1..][0] == u[1];
    }
  }

  /** Filtering for disjoint sets of marks one after the other is filtering
      for both at once: a deleted space never exposes a new one. */
  lemma {:induction false} DropSpacesBeforeTwice(s: string, a: set<char>, b: set<char>)
    requires ' ' !in a && ' ' !in b && a !! b
    ensures DropSpacesBefore(DropSpacesBefore(s, a), b) == DropSpacesBefore(s, a + b)
    decreases |s|
  {
    if |s| == 0 {
    } else if s[0] == ' ' && |s| > 1 && s[1] in a {
      DropSpacesBeforeTwice(s[1..], a, b);
    } else {
      var rest := DropSpacesBefore(s[1..], a);
      var t := [s[0]] + rest;
      assert DropSpacesBefore(s, a) == t;
      DropSpacesBeforeTwice(s[1..], a, b);
      assert t[1..] == rest;
      if |s| > 1 {
        DropSpacesBeforeHead(s[1..], a);
        assert s[1..][0] == s[1];
        assert (t[1] in b) <==> (s[1] in b);
      }
    }
  }

  /** A word passes the filter unchanged. */
  lemma {:induction false} DropSpacesBeforeWord(w: string, t: string, marks: set<char>)
    requires forall i :: 0 <= i < |w| ==> w[i] != ' '
    ensures DropSpacesBefore(w + t, marks) == w + DropSpacesBefore(t, marks)
    decreases |w|
  {
    if |w| > 0 {
      assert (w + t)[1..] == w[1..] + t;
      DropSpacesBeforeWord(w[1..], t, marks);
    } else {
      assert w + t == t;
    }
  }

  /** The filter on a space and what follows it: the space goes exactly
      when the next character is a mark. */
  lemma DropSpacesBeforeSpace(j: string, marks: set<char>)
    requires |j| > 0
    ensures DropSpacesBefore(" " + j, marks) ==
      (if j[0] in marks then "" else " ") + DropSpacesBefore(j, marks)
  {
    assert (" " + j)[1..] == j;
  }

  /** Words joined by single spaces start with the first word. */
  lemma JoinedWordsHead(ws: seq<string>)
    requires |ws| > 0 && IsWord(ws[0])
    ensures |Join(ws, " ")| > 0 && Join(ws, " ")[0] == ws[0][0]
  {
    JoinCons(ws[0], ws[1..], " ");
    assert [ws[0]] + ws[1..] == ws;
  }

  /** Concatenation may be regrouped. */
  lemma SeqAssoc(a: string, b: string, c: string)
    ensures a + (b + c) == a + b + c
  {
  }

  /** Filtering words joined by single spaces glues each word that starts
      with a mark to the word before it. */
  lemma {:induction false} DropSpacesBeforeJoin(ws: seq<string>)
    requires forall i :: 0 <= i < |ws| ==> IsWord(ws[i])
    ensures DropSpacesBefore(Join(ws, " "), Marks) == GlueWords(ws)
    decreases |ws|
  {
    if |ws| == 1 {
      assert IsWord(ws[0]);
      DropSpacesBeforeWord(ws[0], "", Marks);
      assert ws[0] + "" == ws[0];
    } else if |ws| > 1 {
      var w, rest := ws[0], ws[1..];
      var j := Join(rest, " ");
      assert IsWord(w) && IsWord(rest[0]);
      assert forall i :: 0 <= i < |rest| ==> IsWord(rest[i]) by {
        forall i | 0 <= i < |rest| ensures IsWord(rest[i]) {
          assert rest[i] == ws[i + 1];
        }
      }
      JoinCons(w, rest, " ");
      assert [w] + rest == ws;
      assert Join(ws, " ") == w + (" " + j);
      JoinedWordsHead(rest);
      var gap := if rest[0][0] in Marks then "" else " ";
      DropSpacesBeforeWord(w, " " + j, Marks);
      DropSpacesBeforeSpace(j, Marks);
      DropSpacesBeforeJoin(rest);
      assert DropSpacesBefore(" " + j, Marks) == gap + GlueWords(rest);
      assert GlueWords(ws) == w + gap + GlueWords(rest);
      SeqAssoc(w, gap, GlueWords(rest));
    }
  }

  /** Steps 2 and 3 join the words of their input with single spaces,
      except before a word that starts with a mark. */
  lemma TidyGluesWords(text: string)
    ensures Tidy(text) == GlueWords(Words(text))
  {
    var j := CollapseWhitespace(text);
    var c1 := DropSpaceBefore(j, '.');
    DropSpaceIsFilter(j, '.');
    var c2 := DropSpaceBefore(c1, ',');
    DropSpaceIsFilter(c1, ',');
    DropSpacesBeforeTwice(j, {'.'}, {','});
    assert {'.'} + {','} == {'.', ','};
    assert c2 == DropSpacesBefore(j, {'.', ','});
    var c3 := DropSpaceBefore(c2, '!');
    DropSpaceIsFilter(c2, '!');
    DropSpacesBeforeTwice(j, {'.', ','}, {'!'});
    assert {'.', ','} + {'!'} == {'.', ',', '!'};
    assert c3 == DropSpacesBefore(j, {'.', ',', '!'});
    DropSpaceIsFilter(c3, '?');
    DropSpacesBeforeTwice(j, {'.', ',', '!'}, {'?'});
    assert {'.', ',', '!'} + {'?'} == Marks;
    assert Tidy(text) == DropSpacesBefore(j, Marks);
    DropSpacesBeforeJoin(Words(text));
  }

  /** Collapsing whitespace keeps the words: `' '.join(s.split()).split()`
      is `s.split()`, so no two words merge and none is lost. */
  lemma CollapseKeepsWords(s: string)
    ensures Words(CollapseWhitespace(s)) == Words(s)
  {
    WordsJoinRoundTrip(Words(s));
  }

  // ---------------------------------------------------------------------
  // The whole normaliser
  // ---------------------------------------------------------------------

  /** `clean_text` never lengthens its input; its output has no leading or
      trailing whitespace, separates words by single plain spaces, has no
      space in front of `.`, `,`, `!` or `?`, and keeps every character that
      is neither whitespace nor a backslash, in order. */
  lemma CleanTextSpec(text: string)
    ensures var r := CleanText(text);
      && |r| <= |text|
      && Collapsed(r)
      && NoSpaceBeforePunctuation(r)
      && Significant(r) == Significant(text)
      && r == GlueWords(Words(Unescape(text)))
  {
    var a := Unescape(text);
    UnescapeKeepsSignificant(text);
    var b := CollapseWhitespace(a);
    JoinWordsCollapsed(Words(a));
    JoinWordsKeepsSignificant(a);
    JoinWordsNoLonger(a);
    var c1 := DropSpaceBefore(b, '.');
    DropSpaceStep(b, '.');
    var c2 := DropSpaceBefore(c1, ',');
    DropSpaceStep(c1, ',');
    var c3 := DropSpaceBefore(c2, '!');
    DropSpaceStep(c2, '!');
    DropSpaceStep(c3, '?');
  }

  /** A backslash-free, whitespace-normal text with no space before the
      four marks passes through `clean_text` unchanged. */
  lemma CleanFixedPoint(s: string)
    requires Collapsed(s)
    requires NoSpaceBeforePunctuation(s)
    requires '\\' !in s
    ensures CleanText(s) == s
  {
    ReplaceAbsent(s, "\\/", "/");
    TidyFixedPoint(s);
  }

  /** Steps 2 and 3 leave whitespace-normal text with no space before the
      four marks alone. */
  lemma TidyFixedPoint(s: string)
    requires Collapsed(s)
    requires NoSpaceBeforePunctuation(s)
    ensures Tidy(s) == s
  {
    CollapseIdentity(s);
    DropSpaceAbsent(s, '.');
    DropSpaceAbsent(s, ',');
    DropSpaceAbsent(s, '!');
    DropSpaceAbsent(s, '?');
  }

  /** Without a space before `p` there is nothing to drop. */
  lemma {:induction false} DropSpaceAbsent(s: string, p: char)
    requires NoSpaceBefore(s, p)
    ensures DropSpaceBefore(s, p) == s
    decreases |s|
  {
    DropSpaceBeforeUnfold(s, p);
    if |s| >= 2 {
      assert NoSpaceBefore(s[1..], p);
      DropSpaceAbsent(s[1..], p);
      assert [s[0]] + s[1..] == s;
    }
  }

  /** A suffix of whitespace-normal text that starts after a space is
      whitespace-normal. */
  lemma CollapsedAfterSpace(s: string, k: nat)
    requires Collapsed(s)
    requires 0 < k < |s| && s[k - 1] == ' '
    ensures Collapsed(s[k..]) && s[k] != ' '
  {
    var t := s[k..];
    assert forall i :: 0 <= i < |t| ==> t[i] == s[k + i];
  }

  /** Whitespace-normal text is unchanged by `' '.join(text.split())`. */
  lemma {:induction false} CollapseIdentity(s: string)
    requires Collapsed(s)
    ensures CollapseWhitespace(s) == s
    decreases |s|
  {
    if |s| > 0 {
      var n := WordLength(s);
      SplitFirstWord(s);
      if n < |s| {
        CollapseIdentityStep(s, n);
      } else {
        JoinCons(s, Words(s[n..]), " ");
      }
    }
  }

  /** The inductive step of `CollapseIdentity`: a first word of length `n`,
      one space, and a whitespace-normal rest. */
  lemma {:induction false} CollapseIdentityStep(s: string, n: nat)
    requires Collapsed(s)
    requires |s| > 0 && n == WordLength(s) < |s|
    ensures CollapseWhitespace(s) == s
    decreases |s|, 0
  {
    CollapsedSplit(s, n);
    var t := s[n + 1..];
    CollapseIdentity(t);
    CollapseAfterWord(s, n);
    assert s == s[..n] + (" " + t);
  }

  /** Whitespace-normal text whose first word ends before its end continues
      with one space and a whitespace-normal rest that starts a word. */
  lemma CollapsedSplit(s: string, n: nat)
    requires Collapsed(s)
    requires |s| > 0 && n == WordLength(s) < |s|
    ensures !IsSpace(s[0]) && s[n] == ' ' && n + 1 < |s| && !IsSpace(s[n + 1])
    ensures Collapsed(s[n + 1..])
  {
    CollapsedAfterSpace(s, n + 1);
  }

  /** Collapsing text whose first word is followed by one space and another
      word keeps the first word and one space, then collapses the rest. */
  lemma CollapseAfterWord(s: string, n: nat)
    requires |s| > 0 && !IsSpace(s[0])
    requires n == WordLength(s) && n + 1 < |s| && !IsSpace(s[n + 1])
    ensures CollapseWhitespace(s) == s[..n] + (" " + CollapseWhitespace(s[n + 1..]))
  {
    var t := s[n + 1..];
    SplitFirstWord(s);
    assert t[0] == s[n + 1];
    SplitFirstWord(t);
    JoinCons(s[..n], Words(t), " ");
  }

  /** `clean_text` is idempotent on backslash-free text: what it produces it
      leaves alone. */
  lemma CleanTextIdempotent(text: string)
    requires '\\' !in text
    ensures CleanText(CleanText(text)) == CleanText(text)
  {
    CleanTextSpec(text);
    CleanTextAddsNoBackslash(text);
    CleanFixedPoint(CleanText(text));
  }

  /** A backslash can only survive `clean_text` if the input had one. */
  lemma CleanTextAddsNoBackslash(text: string)
    requires '\\' !in text
    ensures '\\' !in CleanText(text)
  {
    var a := Unescape(text);
    assert '\\' !in a;
    CollapseKeepsOut(a, '\\');
    var b := CollapseWhitespace(a);
    var c1 := DropSpaceBefore(b, '.');
    assert '\\' !in c1;
    var c2 := DropSpaceBefore(c1, ',');
    assert '\\' !in c2;
    var c3 := DropSpaceBefore(c2, '!');
    assert '\\' !in c3;
  }

  /** Collapsing whitespace adds no character other than the plain space. */
  lemma {:induction false} CollapseKeepsOut(s: string, c: char)
    requires c !in s && c != ' '
    ensures c !in CollapseWhitespace(s)
    decreases |s|
  {
    if |s| == 0 {
    } else if IsSpace(s[0]) {
      CollapseKeepsOut(s[1..], c);
    } else {
      var n := WordLength(s);
      SplitFirstWord(s);
      JoinCons(s[..n], Words(s[n..]), " ");
      assert c !in s[..n];
      if n < |s| {
        CollapseKeepsOut(s[n + 1..], c);
      }
    }
  }

  /** `clean_text` is not idempotent once backslashes are involved: the
      three characters `\\/` become the escape `\/`, which a second pass
      turns into `/`. */
  lemma CleanTextNotIdempotent()
    ensures CleanText("\\\\/") == "\\/"
    ensures CleanText("\\/") == "/"
  {
    var once := "\\\\/";
    assert Unescape(once) == "\\/" by {
      assert once[..2] != "\\/";
      assert once[1..][..2] == "\\/";
      assert once[1..][2..] == "";
    }
    WordsAfterWord("\\/", "");
    assert "\\/" + "" == "\\/";
    assert Unescape("\\/") == "/" by {
      assert "\\/"[2..] == "";
    }
    WordsAfterWord("/", "");
    assert "/" + "" == "/";
  }
}

=== FILE: config.dfy ===
/** Start-up configuration: the two validating configuration records built
    from the process environment, and the fixed user-visible templates.

    The environment is a map from variable name to value. Python's `int()`
    and `float()` are passed in as parsers that return `None` where Python
    raises `ValueError`. */
module Config {
  import opened Wrappers
  import Decimal

  type Env = map<string, string>

  /** `os.getenv(key)` without a default, which yields `None` when unset. */
  function LookupEnv(env: Env, key: string): (r: Option<string>)
    ensures r.Some? <==> key in env
    ensures r.Some? ==> r.value == env[key]
  {
    if key in env then Some(env[key]) else None
  }

  /** `os.getenv(key, default)`: the variable's value when it is set, even
      to the empty string, and the default only when it is unset. */
  function GetEnv(env: Env, key: string, default: string): (r: string)
    ensures r == (match LookupEnv(env, key) case Some(v) => v case None => default)
  {
    if key in env then env[key] else default
  }

  /** Why a configuration object could not be built: one of the program's
      own `ValueError`s, or the one `int()`/`float()` raises on a value it
      cannot parse. */
  datatype ConfigError =
    | Rejected(message: string)
    | Unparsable(key: string, value: string)

  // ---------------------------------------------------------------------
  // Telegram
  // ---------------------------------------------------------------------

  datatype TelegramConfig = TelegramConfig(
    apiId: string,
    apiHash: string,
    phoneNumber: string,
    sessionName: string,
    managerChannelId: int)

  const DefaultSessionName := "manager_bot"
  const ChannelNotANumber := "MANAGER_CHANNEL_ID должен быть числом"
  const CredentialsRequired := "API_ID и API_HASH обязательны для Telegram"
  const PhoneRequired := "PHONE_NUMBER обязателен для Telegram"
  const ChannelRequired := "MANAGER_CHANNEL_ID обязателен для Telegram"

  /** What the Telegram configuration's validation accepts. */
  predicate ValidTelegramConfig(c: TelegramConfig) {
    c.apiId != "" && c.apiHash != "" && c.phoneNumber != "" && c.managerChannelId != 0
  }

  /** `TelegramConfig()`: reads the five variables (all defaulting to the
      empty string except `SESSION_NAME`), converts the channel id first, and
      then checks the credentials, the phone number and the channel id, in
      that order, raising on the first failure. */
  function LoadTelegramConfig(env: Env, parseInt: string -> Option<int>): (r: Result<TelegramConfig, ConfigError>)
    ensures r.Success? <==>
      && parseInt(GetEnv(env, "MANAGER_CHANNEL_ID", "")).Some?
      && GetEnv(env, "API_ID", "") != "" && GetEnv(env, "API_HASH", "") != ""
      && GetEnv(env, "PHONE_NUMBER", "") != ""
      && parseInt(GetEnv(env, "MANAGER_CHANNEL_ID", "")).value != 0
    ensures r.Success? ==> ValidTelegramConfig(r.value)
    ensures r.Success? ==>
      && r.value.apiId == GetEnv(env, "API_ID", "")
      && r.value.apiHash == GetEnv(env, "API_HASH", "")
      && r.value.phoneNumber == GetEnv(env, "PHONE_NUMBER", "")
      && r.value.sessionName == GetEnv(env, "SESSION_NAME", DefaultSessionName)
      && Some(r.value.managerChannelId) == parseInt(GetEnv(env, "MANAGER_CHANNEL_ID", ""))
    // each error is raised exactly when every earlier check passed and its own fails
    ensures r == Failure(Rejected(ChannelNotANumber)) <==>
      parseInt(GetEnv(env, "MANAGER_CHANNEL_ID", "")).None?
    ensures r == Failure(Rejected(CredentialsRequired)) <==>
      && parseInt(GetEnv(env, "MANAGER_CHANNEL_ID", "")).Some?
      && (GetEnv(env, "API_ID", "") == "" || GetEnv(env, "API_HASH", "") == "")
    ensures r == Failure(Rejected(PhoneRequired)) <==>
      && parseInt(GetEnv(env, "MANAGER_CHANNEL_ID", "")).Some?
      && GetEnv(env, "API_ID", "") != "" && GetEnv(env, "API_HASH", "") != ""
      && GetEnv(env, "PHONE_NUMBER", "") == ""
    ensures r == Failure(Rejected(ChannelRequired)) <==>
      && parseInt(GetEnv(env, "MANAGER_CHANNEL_ID", "")).Some?
      && GetEnv(env, "API_ID", "") != "" && GetEnv(env, "API_HASH", "") != ""
      && GetEnv(env, "PHONE_NUMBER", "") != ""
      && parseInt(GetEnv(env, "MANAGER_CHANNEL_ID", "")).value == 0
    ensures r.Failure? ==> r.error in {
      Rejected(ChannelNotANumber), Rejected(CredentialsRequired),
      Rejected(PhoneRequired), Rejected(ChannelRequired) }
  {
    var apiId := GetEnv(env, "API_ID", "");
    var apiHash := GetEnv(env, "API_HASH", "");
    var phoneNumber := GetEnv(env, "PHONE_NUMBER", "");
    var sessionName := GetEnv(env, "SESSION_NAME", DefaultSessionName);
    match parseInt(GetEnv(env, "MANAGER_CHANNEL_ID", ""))
    case None => Failure(Rejected(ChannelNotANumber))
    case Some(channelId) =>
      if apiId == "" || apiHash == "" then Failure(Rejected(CredentialsRequired))
      else if phoneNumber == "" then Failure(Rejected(PhoneRequired))
      else if channelId == 0 then Failure(Rejected(ChannelRequired))
      else Success(TelegramConfig(apiId, apiHash, phoneNumber, sessionName, channelId))
  }

  /** An environment that spells out every field of `c`, the channel id in
      Python's decimal notation. */
  function TelegramEnv(c: TelegramConfig): Env {
    map[
      "API_ID" := c.apiId,
      "API_HASH" := c.apiHash,
      "PHONE_NUMBER" := c.phoneNumber,
      "SESSION_NAME" := c.sessionName,
      "MANAGER_CHANNEL_ID" := Decimal.IntToString(c.managerChannelId)]
  }

  /** Every configuration the validation accepts is reachable: writing it to
      the environment and loading it gives it back. */
  lemma TelegramConfigRoundTrip(c: TelegramConfig)
    requires ValidTelegramConfig(c)
    ensures LoadTelegramConfig(TelegramEnv(c), Decimal.ParseInt) == Success(c)
  {
    Decimal.IntToStringRoundTrip(c.managerChannelId);
  }

  // ---------------------------------------------------------------------
  // OpenAI
  // ---------------------------------------------------------------------

  datatype OpenAIConfig = OpenAIConfig(
    apiKey: string,
    baseUrl: string,
    modelName: string,
    temperature: real,
    maxTokens: int,
    presencePenalty: real,
    frequencyPenalty: real)

  const DefaultModelName := "gpt-3.5-turbo"
  const DefaultBaseUrl := "https://api.openai.com/v1"
  const ApiKeyRequired := "OPENAI_API_KEY обязателен для OpenAI"

  /** `OpenAIConfig()`: converts the four sampling settings in source order
      (`TEMPERATURE`, `MAX_TOKENS`, `PRESENCE_PENALTY`, `FREQUENCY_PENALTY`,
      each with its default text), and only then insists on a non-empty
      `OPENAI_API_KEY`, which has no default. */
  function LoadOpenAIConfig(env: Env, parseInt: string -> Option<int>, parseReal: string -> Option<real>)
    : (r: Result<OpenAIConfig, ConfigError>)
    ensures r.Success? <==>
      && parseReal(GetEnv(env, "TEMPERATURE", "0.2")).Some?
      && parseInt(GetEnv(env, "MAX_TOKENS", "500")).Some?
      && parseReal(GetEnv(env, "PRESENCE_PENALTY", "0.6")).Some?
      && parseReal(GetEnv(env, "FREQUENCY_PENALTY", "0.0")).Some?
      && "OPENAI_API_KEY" in env && env["OPENAI_API_KEY"] != ""
    ensures r.Success? ==>
      && r.value.apiKey == env["OPENAI_API_KEY"]
      && r.value.baseUrl == GetEnv(env, "OPENAI_BASE_URL", DefaultBaseUrl)
      && r.value.modelName == GetEnv(env, "MODEL_NAME", DefaultModelName)
      && Some(r.value.temperature) == parseReal(GetEnv(env, "TEMPERATURE", "0.2"))
      && Some(r.value.maxTokens) == parseInt(GetEnv(env, "MAX_TOKENS", "500"))
      && Some(r.value.presencePenalty) == parseReal(GetEnv(env, "PRESENCE_PENALTY", "0.6"))
      && Some(r.value.frequencyPenalty) == parseReal(GetEnv(env, "FREQUENCY_PENALTY", "0.0"))
    // the settings are converted in source order; the first that fails is reported
    ensures parseReal(GetEnv(env, "TEMPERATURE", "0.2")).None? ==>
      r == Failure(Unparsable("TEMPERATURE", GetEnv(env, "TEMPERATURE", "0.2")))
    ensures
      && parseReal(GetEnv(env, "TEMPERATURE", "0.2")).Some?
      && parseInt(GetEnv(env, "MAX_TOKENS", "500")).None?
      ==> r == Failure(Unparsable("MAX_TOKENS", GetEnv(env, "MAX_TOKENS", "500")))
    ensures
      && parseReal(GetEnv(env, "TEMPERATURE", "0.2")).Some?
      && parseInt(GetEnv(env, "MAX_TOKENS", "500")).Some?
      && parseReal(GetEnv(env, "PRESENCE_PENALTY", "0.6")).None?
      ==> r == Failure(Unparsable("PRESENCE_PENALTY", GetEnv(env, "PRESENCE_PENALTY", "0.6")))
    ensures
      && parseReal(GetEnv(env, "TEMPERATURE", "0.2")).Some?
      && parseInt(GetEnv(env, "MAX_TOKENS", "500")).Some?
      && parseReal(GetEnv(env, "PRESENCE_PENALTY", "0.6")).Some?
      && parseReal(GetEnv(env, "FREQUENCY_PENALTY", "0.0")).None?
      ==> r == Failure(Unparsable("FREQUENCY_PENALTY", GetEnv(env, "FREQUENCY_PENALTY", "0.0")))
    // a missing or empty key is reported only once every setting has parsed
    ensures r == Failure(Rejected(ApiKeyRequired)) <==>
      && parseReal(GetEnv(env, "TEMPERATURE", "0.2")).Some?
      && parseInt(GetEnv(env, "MAX_TOKENS", "500")).Some?
      && parseReal(GetEnv(env, "PRESENCE_PENALTY", "0.6")).Some?
      && parseReal(GetEnv(env, "FREQUENCY_PENALTY", "0.0")).Some?
      && !("OPENAI_API_KEY" in env && env["OPENAI_API_KEY"] != "")
    ensures r.Failure? && r.error.Rejected? ==> r.error.message == ApiKeyRequired
  {
    var apiKey := LookupEnv(env, "OPENAI_API_KEY");
    var baseUrl := GetEnv(env, "OPENAI_BASE_URL", DefaultBaseUrl);
    var modelName := GetEnv(env, "MODEL_NAME", DefaultModelName);
    var temperatureText := GetEnv(env, "TEMPERATURE", "0.2");
    var maxTokensText := GetEnv(env, "MAX_TOKENS", "500");
    var presenceText := GetEnv(env, "PRESENCE_PENALTY", "0.6");
    var frequencyText := GetEnv(env, "FREQUENCY_PENALTY", "0.0");
    match (parseReal(temperatureText), parseInt(maxTokensText), parseReal(presenceText), parseReal(frequencyText))
    case (None, _, _, _) => Failure(Unparsable("TEMPERATURE", temperatureText))
    case (Some(_), None, _, _) => Failure(Unparsable("MAX_TOKENS", maxTokensText))
    case (Some(_), Some(_), None, _) => Failure(Unparsable("PRESENCE_PENALTY", presenceText))
    case (Some(_), Some(_), Some(_), None) => Failure(Unparsable("FREQUENCY_PENALTY", frequencyText))
    case (Some(temperature), Some(maxTokens), Some(presence), Some(frequency)) =>
      if apiKey == None || apiKey == Some("") then Failure(Rejected(ApiKeyRequired))
      else Success(OpenAIConfig(apiKey.value, baseUrl, modelName, temperature, maxTokens, presence, frequency))
  }

  /** An environment that spells out every field of `c`, numbers rendered by
      the given printers. */
  function OpenAIEnv(c: OpenAIConfig, showInt: int -> string, showReal: real -> string): Env {
    map[
      "OPENAI_API_KEY" := c.apiKey,
      "OPENAI_BASE_URL" := c.baseUrl,
      "MODEL_NAME" := c.modelName,
      "TEMPERATURE" := showReal(c.temperature),
      "MAX_TOKENS" := showInt(c.maxTokens),
      "PRESENCE_PENALTY" := showReal(c.presencePenalty),
      "FREQUENCY_PENALTY" := showReal(c.frequencyPenalty)]
  }

  /** Any configuration with a non-empty key is reachable, provided the
      parsers read back what the printers write for its own settings. */
  lemma OpenAIConfigRoundTrip(c: OpenAIConfig, parseInt: string -> Option<int>, showInt: int -> string,
                              parseReal: string -> Option<real>, showReal: real -> string)
    requires c.apiKey != ""
    requires parseInt(showInt(c.maxTokens)) == Some(c.maxTokens)
    requires parseReal(showReal(c.temperature)) == Some(c.temperature)
    requires parseReal(showReal(c.presencePenalty)) == Some(c.presencePenalty)
    requires parseReal(showReal(c.frequencyPenalty)) == Some(c.frequencyPenalty)
    ensures LoadOpenAIConfig(OpenAIEnv(c, showInt, showReal), parseInt, parseReal) == Success(c)
  {
    var env := OpenAIEnv(c, showInt, showReal);
    assert parseReal(env["TEMPERATURE"]) == Some(c.temperature);
    assert parseInt(env["MAX_TOKENS"]) == Some(c.maxTokens);
    assert parseReal(env["PRESENCE_PENALTY"]) == Some(c.presencePenalty);
    assert parseReal(env["FREQUENCY_PENALTY"]) == Some(c.frequencyPenalty);
  }

  // ---------------------------------------------------------------------
  // User-visible templates
  // ---------------------------------------------------------------------

  /** The notice a user gets when the conversation is handed to a manager. */
  const TransferToManager := "Я передам диалог нашему менеджеру. Он свяжется с вами в ближайшее время."

  /** The generic technical-error notice; the bot defines it but never sends it. */
  const ErrorNotice := "Извините, произошла техническая ошибка. Я передам ваш вопрос менеджеру."
}

=== FILE: decimal.dfy ===
/** Python's `str(n)` for integers (plain decimal, a `-` sign for negatives,
    no leading zeros) and the parser that inverts it. */
module Decimal {
  import opened Wrappers

  function DigitChar(d: nat): (c: char)
    requires d < 10
    ensures '0' <= c <= '9'
  {
    (('0' as int) + d) as char
  }

  function DigitValue(c: char): (d: nat)
    requires '0' <= c <= '9'
    ensures d < 10
  {
    (c as int) - ('0' as int)
  }

  predicate IsDigits(s: string) {
    forall i :: 0 <= i < |s| ==> '0' <= s[i] <= '9'
  }

  /** `str(n)` for `n >= 0`: decimal digits, most significant first, with no
      leading zero except in "0" itself. */
  function NatToString(n: nat): (s: string)
    ensures |s| > 0 && IsDigits(s)
    ensures s[0] == '0' ==> n == 0
    decreases n
  {
    if n < 10 then [DigitChar(n)] else NatToString(n / 10) + [DigitChar(n % 10)]
  }

  /** `str(n)` for any integer: a `-` exactly for negatives, then the
      digits of the magnitude. */
  function IntToString(n: int): (s: string)
    ensures |s| > 0 && (s[0] == '-' <==> n < 0)
    ensures n < 0 ==> |s| > 1 && IsDigits(s[1..])
    ensures n >= 0 ==> IsDigits(s)
  {
    if n < 0 then "-" + NatToString(-n) else NatToString(n)
  }

  /** The value of a string of decimal digits. */
  function DigitsValue(s: string): nat
    requires IsDigits(s)
  {
    if |s| == 0 then 0 else 10 * DigitsValue(s[..|s| - 1]) + DigitValue(s[|s| - 1])
  }

  /** Reads back an optional `-` sign followed by at least one digit. */
  function ParseInt(s: string): Option<int> {
    if |s| > 0 && s[0] == '-' then
      (if |s| > 1 && IsDigits(s[1..]) then Some(0 - DigitsValue(s[1..])) else None)
    else if |s| > 0 && IsDigits(s) then Some(DigitsValue(s) as int)
    else None
  }

  lemma {:induction false} NatToStringValue(n: nat)
    ensures DigitsValue(NatToString(n)) == n
    decreases n
  {
    var s := NatToString(n);
    if n >= 10 {
      NatToStringValue(n / 10);
      assert s[..|s| - 1] == NatToString(n / 10);
    }
  }

  /** Parsing the digits of a natural number gives it back. */
  lemma NatToStringRoundTrip(n: nat)
    ensures ParseInt(NatToString(n)) == Some(n)
  {
    NatToStringValue(n);
    assert NatToString(n)[0] != '-';
  }

  /** `str` loses nothing: parsing its output gives the number back. */
  lemma IntToStringRoundTrip(n: int)
    ensures ParseInt(IntToString(n)) == Some(n)
  {
    if n < 0 {
      var t := NatToString(-n);
      NatToStringValue(-n);
      assert ("-" + t)[1..] == t;
    } else {
      NatToStringRoundTrip(n);
    }
  }
}

=== FILE: gpt_client.dfy ===
/** The decision policy around the classifier: how the request is
    assembled, how the classifier's structured record is post-processed with
    a confidence floor, and how every failure becomes a fixed fallback
    record.

    The classifier itself (the chat-completions call with its forced
    `handle_user_request` function call, and the decoding of its JSON
    arguments) is a parameter: a function from the request to either a
    decoded record or the text of the error that interrupted it. */
module GptClient {
  import opened Wrappers

  /** One remembered turn of a user's conversation. */
  datatype Turn = Turn(isUser: bool, text: string)

  datatype Role = SystemRole | UserRole | AssistantRole

  /** One entry of the request's message list. */
  datatype ChatMessage = ChatMessage(role: Role, content: string)

  /** The structured record `handle_user_request` returns. Confidence is
      exact here, where the bot computes with a binary float. */
  datatype Decision = Decision(response: string, requiresManager: bool, reason: string, confidence: real)

  /** The classifier: the request's message list to a decoded record, or to
      the text of the exception raised on the way. */
  type Classifier = seq<ChatMessage> -> Result<Decision, string>

  /** How many of the latest context turns the request carries. */
  const RecentTurns := 5

  /** Below this confidence an answer is turned into an escalation. */
  const ConfidenceFloor: real := 0.8

  /** The response text of the fallback record. */
  const ErrorResponse := "Произошла ошибка при обработке запроса."

  function RoleName(r: Role): string {
    match r
    case SystemRole => "system"
    case UserRole => "user"
    case AssistantRole => "assistant"
  }

  function Min(a: nat, b: nat): nat {
    if a <= b then a else b
  }

  // ---------------------------------------------------------------------
  // Request assembly
  // ---------------------------------------------------------------------

  /** A context turn as a request message: the user's turns under `user`,
      the bot's under `assistant`, the text unchanged. */
  function TurnMessage(t: Turn): (m: ChatMessage)
    ensures m.content == t.text
    ensures RoleName(m.role) == (if t.isUser then "user" else "assistant")
  {
    ChatMessage(if t.isUser then UserRole else AssistantRole, t.text)
  }

  function TurnMessages(turns: seq<Turn>): (ms: seq<ChatMessage>)
    ensures |ms| == |turns|
    ensures forall i :: 0 <= i < |turns| ==> ms[i] == TurnMessage(turns[i])
  {
    if |turns| == 0 then [] else [TurnMessage(turns[0])] + TurnMessages(turns[1..])
  }

  /** The `messages` list of the request: the system prompt, then the last
      (at most five) context turns oldest first, then the new message. */
  function BuildRequest(systemPrompt: string, message: string, context: seq<Turn>): (r: seq<ChatMessage>)
    ensures |r| == 2 + Min(RecentTurns, |context|)
    ensures r[0] == ChatMessage(SystemRole, systemPrompt)
    ensures r[|r| - 1] == ChatMessage(UserRole, message)
    ensures forall i :: 1 <= i < |r| - 1 ==> r[i] == TurnMessage(context[|context| - |r| + 1 + i])
  {
    var recent := if |context| > 0 then context[|context| - Min(RecentTurns, |context|)..] else [];
    [ChatMessage(SystemRole, systemPrompt)] + TurnMessages(recent) + [ChatMessage(UserRole, message)]
  }

  /** When the context already ends with the new message, the request
      carries that message twice in a row: once as the newest context turn,
      once as the closing user message. */
  lemma RequestRepeatsMessage(systemPrompt: string, message: string, context: seq<Turn>)
    requires |context| > 0 && context[|context| - 1] == Turn(true, message)
    ensures var r := BuildRequest(systemPrompt, message, context);
      |r| >= 3 && r[|r| - 2] == r[|r| - 1] == ChatMessage(UserRole, message)
  {
    var r := BuildRequest(systemPrompt, message, context);
    assert r[|r| - 2] == TurnMessage(context[|context| - 1]);
  }

  /** Older turns never reach the request: two contexts that agree on their
      last five turns give the same request. */
  lemma RequestSeesOnlyRecentTurns(systemPrompt: string, message: string, c1: seq<Turn>, c2: seq<Turn>)
    requires |c1| >= RecentTurns && |c2| >= RecentTurns
    requires c1[|c1| - RecentTurns..] == c2[|c2| - RecentTurns..]
    ensures BuildRequest(systemPrompt, message, c1) == BuildRequest(systemPrompt, message, c2)
  {
    var r1 := BuildRequest(systemPrompt, message, c1);
    var r2 := BuildRequest(systemPrompt, message, c2);
    forall i | 1 <= i < |r1| - 1
      ensures r1[i] == r2[i]
    {
      assert c1[|c1| - RecentTurns..][i - 1] == c2[|c2| - RecentTurns..][i - 1];
    }
  }

  // ---------------------------------------------------------------------
  // Post-processing
  // ---------------------------------------------------------------------

  /** The reason recorded when the floor overrides an answer; `shown` is the
      confidence as Python's f-string prints it. */
  function LowConfidenceReason(shown: string): string {
    "Низкая уверенность в ответе (" + shown + ")"
  }

  /** The confidence floor: an answer (not yet escalated) below the floor
      becomes an escalation with an empty response and a reason quoting the
      confidence; everything else passes through untouched. */
  function ApplyConfidenceFloor(raw: Decision, showConfidence: real -> string): (d: Decision)
    // escalation is sticky: an escalated record is returned as it came
    ensures raw.requiresManager ==> d == raw
    ensures !raw.requiresManager && raw.confidence < ConfidenceFloor ==>
      d == Decision("", true, LowConfidenceReason(showConfidence(raw.confidence)), raw.confidence)
    ensures d.requiresManager <==> raw.requiresManager || raw.confidence < ConfidenceFloor
    ensures d.confidence == raw.confidence
    // an answer that survives is confident and carries the classifier's text
    ensures !d.requiresManager ==> d.confidence >= ConfidenceFloor && d == raw
  {
    if raw.confidence < ConfidenceFloor && !raw.requiresManager then
      raw.(requiresManager := true,
           reason := LowConfidenceReason(showConfidence(raw.confidence)),
           response := "")
    else raw
  }

  /** Applying the floor twice changes nothing more. */
  lemma ConfidenceFloorIdempotent(raw: Decision, showConfidence: real -> string)
    ensures ApplyConfidenceFloor(ApplyConfidenceFloor(raw, showConfidence), showConfidence)
         == ApplyConfidenceFloor(raw, showConfidence)
  {
  }

  /** The record returned when anything on the way to the classifier's
      answer raised: an escalation with a fixed, non-empty response text,
      the error quoted in the reason, and zero confidence. */
  function ErrorFallback(error: string): (d: Decision)
    ensures d.requiresManager && d.confidence == 0.0
    ensures d.response == ErrorResponse && d.response != ""
    ensures |d.reason| == 8 + |error| && d.reason[..8] == "Ошибка: " && d.reason[8..] == error
  {
    Decision(ErrorResponse, true, "Ошибка: " + error, 0.0)
  }

  /** `get_response(message, context)`: never raises. A failed
      classification becomes the fallback record; a decoded one goes
      through the confidence floor. */
  function GetResponse(systemPrompt: string, message: string, context: seq<Turn>,
                       classify: Classifier, showConfidence: real -> string): (d: Decision)
    ensures var raw := classify(BuildRequest(systemPrompt, message, context));
      && (raw.Failure? ==> d == ErrorFallback(raw.error))
      && (raw.Success? ==> d == ApplyConfidenceFloor(raw.value, showConfidence))
    // the bot answers only with a confident reply the classifier produced
    ensures !d.requiresManager ==>
      var raw := classify(BuildRequest(systemPrompt, message, context));
      && raw.Success? && !raw.value.requiresManager
      && raw.value.confidence >= ConfidenceFloor
      && d.response == raw.value.response
  {
    match classify(BuildRequest(systemPrompt, message, context))
    case Failure(error) => ErrorFallback(error)
    case Success(raw) => ApplyConfidenceFloor(raw, showConfidence)
  }

  /** Escalation is never reversed: whatever the confidence, a classifier
      that escalates, or fails, gets an escalation. */
  lemma EscalationIsSticky(systemPrompt: string, message: string, context: seq<Turn>,
                           classify: Classifier, showConfidence: real -> string)
    requires var raw := classify(BuildRequest(systemPrompt, message, context));
      raw.Failure? || raw.value.requiresManager
    ensures GetResponse(systemPrompt, message, context, classify, showConfidence).requiresManager
  {
  }

  /** An escalation need not come with an empty response: a classifier
      record that escalates with text keeps that text, whatever its
      confidence. */
  lemma EscalationMayKeepResponse(showConfidence: real -> string)
    ensures var raw := Decision("Ответ", true, "", 0.1);
      var d := ApplyConfidenceFloor(raw, showConfidence);
      d.requiresManager && d.response == "Ответ"
  {
  }
}

=== FILE: prompt.dfy ===
/** The instruction text given to the classifier: the example-dialogue
    catalog serialised into `role: text` lines, framed by the fixed rule
    blocks. The rule blocks are fixed texts whose wording the model does not
    depend on, so they are parameters here. */
module Prompt {
  import opened Wrappers
  import opened Text

  /** One recorded message of an example dialogue. */
  datatype CatalogMessage = CatalogMessage(author: string, text: string)

  /** One example dialogue: its messages in order. */
  datatype Dialogue = Dialogue(messages: seq<CatalogMessage>)

  /** The author name that marks a message as the client's. */
  const ClientAuthor := "Клиент"

  /** The entry that closes every dialogue. */
  const DialogueSeparator := "---"

  /** The role a catalog message is shown under: the client speaks as
      `user`, every other author as `assistant`. */
  function RoleLabel(author: string): string {
    if author == ClientAuthor then "user" else "assistant"
  }

  /** The entry `f"{role}: {text}"` for one message; the text is kept
      verbatim, line breaks included. */
  function MessageEntry(m: CatalogMessage): string {
    RoleLabel(m.author) + ": " + m.text
  }

  /** The entries one dialogue contributes: its messages, then the separator. */
  function DialogueEntries(d: Dialogue): seq<string> {
    MessageEntries(d.messages) + [DialogueSeparator]
  }

  function MessageEntries(ms: seq<CatalogMessage>): seq<string> {
    if |ms| == 0 then [] else [MessageEntry(ms[0])] + MessageEntries(ms[1..])
  }

  /** The list `format_examples` builds before joining: the entries of every
      dialogue, in catalog order. */
  function ExampleEntries(catalog: seq<Dialogue>): seq<string> {
    if |catalog| == 0 then [] else DialogueEntries(catalog[0]) + ExampleEntries(catalog[1..])
  }

  /** `format_examples()` for a given catalog: empty exactly for an empty
      catalog, and otherwise closed by the last dialogue's separator. */
  function FormatExamples(catalog: seq<Dialogue>): (r: string)
    ensures r == "" <==> catalog == []
    ensures catalog != [] ==> EndsWith(r, DialogueSeparator)
  {
    JoinedEntriesEnd(catalog);
    Join(ExampleEntries(catalog), "\n")
  }

  /** `FINAL_SYSTEM_PROMPT` for given rule blocks and catalog: the rule
      preamble, then the serialised catalog, then the closing rules; each
      can be cut back out of it. */
  function FinalSystemPrompt(promptStart: string, catalog: seq<Dialogue>, postExamplesRules: string): (r: string)
    ensures StartsWith(r, promptStart) && EndsWith(r, postExamplesRules)
    ensures |promptStart| + |postExamplesRules| <= |r|
    ensures ExamplesSection(r, |promptStart|, |postExamplesRules|) == FormatExamples(catalog)
  {
    promptStart + FormatExamples(catalog) + postExamplesRules
  }

  /** The examples section of a prompt, given the lengths of the fixed
      blocks that frame it. */
  function ExamplesSection(prompt: string, startLength: nat, rulesLength: nat): string
    requires startLength + rulesLength <= |prompt|
  {
    prompt[startLength..|prompt| - rulesLength]
  }

  // ---------------------------------------------------------------------
  // Layout of the entry list
  // ---------------------------------------------------------------------

  /** The number of messages in the catalog. */
  function TotalMessages(catalog: seq<Dialogue>): nat {
    if |catalog| == 0 then 0 else |catalog[0].messages| + TotalMessages(catalog[1..])
  }

  /** The position in the entry list where dialogue `i` starts. */
  function Offset(catalog: seq<Dialogue>, i: nat): nat
    requires i <= |catalog|
  {
    if i == 0 then 0 else |catalog[0].messages| + 1 + Offset(catalog[1..], i - 1)
  }

  /** Entry `j` of a message list is the entry of message `j`. */
  lemma {:induction false} MessageEntriesLayout(ms: seq<CatalogMessage>)
    ensures |MessageEntries(ms)| == |ms|
    ensures forall j :: 0 <= j < |ms| ==> MessageEntries(ms)[j] == MessageEntry(ms[j])
    decreases |ms|
  {
    if |ms| > 0 {
      MessageEntriesLayout(ms[1..]);
    }
  }

  /** There are as many entries as messages plus dialogues. */
  lemma {:induction false} ExampleEntriesCount(catalog: seq<Dialogue>)
    ensures |ExampleEntries(catalog)| == TotalMessages(catalog) + |catalog|
    decreases |catalog|
  {
    if |catalog| > 0 {
      MessageEntriesLayout(catalog[0].messages);
      ExampleEntriesCount(catalog[1..]);
    }
  }

  /** Entry `Offset(catalog, i) + j` is message `j` of dialogue `i`, or,
      right after its last message, the separator closing it. */
  lemma {:induction false} EntryAt(catalog: seq<Dialogue>, i: nat, j: nat)
    requires i < |catalog| && j <= |catalog[i].messages|
    ensures Offset(catalog, i) + j < |ExampleEntries(catalog)|
    ensures ExampleEntries(catalog)[Offset(catalog, i) + j] ==
      if j < |catalog[i].messages| then MessageEntry(catalog[i].messages[j]) else DialogueSeparator
    decreases i
  {
    var head := DialogueEntries(catalog[0]);
    MessageEntriesLayout(catalog[0].messages);
    assert |head| == |catalog[0].messages| + 1;
    assert ExampleEntries(catalog) == head + ExampleEntries(catalog[1..]);
    if i == 0 {
      assert ExampleEntries(catalog)[j] == head[j];
    } else {
      EntryAt(catalog[1..], i - 1, j);
      assert catalog[1..][i - 1] == catalog[i];
      assert Offset(catalog, i) == |head| + Offset(catalog[1..], i - 1);
    }
  }

  /** The entry list holds one entry per message, in catalog order, each
      dialogue closed by one separator: there are as many entries as
      messages plus dialogues, message `j` of dialogue `i` sits at
      `Offset(catalog, i) + j`, and the separator right after the last. */
  lemma ExampleEntriesLayout(catalog: seq<Dialogue>)
    ensures |ExampleEntries(catalog)| == TotalMessages(catalog) + |catalog|
    ensures forall i, j :: 0 <= i < |catalog| && 0 <= j < |catalog[i].messages| ==>
      Offset(catalog, i) + j < |ExampleEntries(catalog)| &&
      ExampleEntries(catalog)[Offset(catalog, i) + j] == MessageEntry(catalog[i].messages[j])
    ensures forall i :: 0 <= i < |catalog| ==>
      Offset(catalog, i) + |catalog[i].messages| < |ExampleEntries(catalog)| &&
      ExampleEntries(catalog)[Offset(catalog, i) + |catalog[i].messages|] == DialogueSeparator
  {
    ExampleEntriesCount(catalog);
    forall i, j | 0 <= i < |catalog| && 0 <= j < |catalog[i].messages|
      ensures Offset(catalog, i) + j < |ExampleEntries(catalog)|
      ensures ExampleEntries(catalog)[Offset(catalog, i) + j] == MessageEntry(catalog[i].messages[j])
    {
      EntryAt(catalog, i, j);
    }
    forall i | 0 <= i < |catalog| {
      EntryAt(catalog, i, |catalog[i].messages|);
    }
  }

  /** The role shown is `user` exactly for the client's messages and
      `assistant` for every other author; the text follows `": "` unchanged. */
  lemma MessageEntryShape(m: CatalogMessage)
    ensures StartsWith(MessageEntry(m), "user: ") <==> m.author == ClientAuthor
    ensures StartsWith(MessageEntry(m), "assistant: ") <==> m.author != ClientAuthor
    ensures EndsWith(MessageEntry(m), m.text)
  {
    var e := MessageEntry(m);
    if m.author == ClientAuthor {
      assert e == "user: " + m.text;
      assert e[..6] == "user: ";
      assert !StartsWith(e, "assistant: ") by {
        if |e| >= 11 { assert e[0] != "assistant: "[0]; }
      }
    } else {
      assert e == "assistant: " + m.text;
      assert e[..11] == "assistant: ";
      assert e[0] != "user: "[0];
    }
    assert e[|e| - |m.text|..] == m.text;
  }

  /** Reads a message entry back into "is the client" and the text. */
  function ParseEntry(entry: string): Option<(bool, string)> {
    if StartsWith(entry, "user: ") then Some((true, entry[6..]))
    else if StartsWith(entry, "assistant: ") then Some((false, entry[11..]))
    else None
  }

  /** A message entry loses nothing the prompt needs: who spoke (client or
      not) and the exact text can be read back from it. */
  lemma MessageEntryRoundTrip(m: CatalogMessage)
    ensures ParseEntry(MessageEntry(m)) == Some((m.author == ClientAuthor, m.text))
  {
    MessageEntryShape(m);
  }

  /** The joined entry list of an empty catalog is empty; that of a
      non-empty one ends with the separator closing its last dialogue. */
  lemma JoinedEntriesEnd(catalog: seq<Dialogue>)
    ensures catalog == [] ==> Join(ExampleEntries(catalog), "\n") == ""
    ensures catalog != [] ==> EndsWith(Join(ExampleEntries(catalog), "\n"), DialogueSeparator)
  {
    if catalog != [] {
      var entries := ExampleEntries(catalog);
      ExampleEntriesLayout(catalog);
      assert |entries| >= 1;
      LastEntryIsSeparator(catalog);
      if |entries| == 1 {
        assert Join(entries, "\n") == entries[0];
      } else {
        assert entries == entries[..|entries| - 1] + [entries[|entries| - 1]];
        JoinSnoc(entries[..|entries| - 1], entries[|entries| - 1], "\n");
      }
    }
  }

  /** The last entry of a non-empty catalog's list is a separator. */
  lemma {:induction false} LastEntryIsSeparator(catalog: seq<Dialogue>)
    requires catalog != []
    ensures |ExampleEntries(catalog)| > 0
    ensures ExampleEntries(catalog)[|ExampleEntries(catalog)| - 1] == DialogueSeparator
    decreases |catalog|
  {
    if |catalog| > 1 {
      LastEntryIsSeparator(catalog[1..]);
    }
  }
}

=== FILE: text.dfy ===
/** The Python string primitives the bot relies on, written out over
    `seq<char>`: `str.replace`, the argument-less `str.split()`, `sep.join`,
    and the whitespace class both of them use. */
module Text {

  /** Python's `str.isspace` for one character: the characters the
      argument-less `str.split()` breaks on. */
  predicate IsSpace(c: char) {
    || c == ' '
    || ('\t' <= c <= '\r')
    || ('\U{1C}' <= c <= '\U{1F}')
    || c == '\U{85}'
    || c == '\U{A0}'
    || c == '\U{1680}'
    || ('\U{2000}' <= c <= '\U{200A}')
    || c == '\U{2028}'
    || c == '\U{2029}'
    || c == '\U{202F}'
    || c == '\U{205F}'
    || c == '\U{3000}'
  }

  predicate StartsWith(s: string, prefix: string) {
    |prefix| <= |s| && s[..|prefix|] == prefix
  }

  predicate EndsWith(s: string, suffix: string) {
    |suffix| <= |s| && s[|s| - |suffix|..] == suffix
  }

  /** `s.replace(pat, rep)`: scans left to right and replaces every
      non-overlapping occurrence of `pat`. The bot never replaces the empty
      string, so `pat` is non-empty here. Every character of the result
      comes from the text or from the replacement. */
  function Replace(s: string, pat: string, rep: string): (r: string)
    requires |pat| > 0
    ensures forall c :: c in r ==> c in s || c in rep
    decreases |s|
  {
    if |s| < |pat| then s
    else if s[..|pat|] == pat then rep + Replace(s[|pat|..], pat, rep)
    else [s[0]] + Replace(s[1..], pat, rep)
  }

  /** Replacing by something no longer never lengthens the text. */
  lemma {:induction false} ReplaceNoLonger(s: string, pat: string, rep: string)
    requires |pat| > 0 && |rep| <= |pat|
    ensures |Replace(s, pat, rep)| <= |s|
    decreases |s|
  {
    if |s| < |pat| {
    } else if s[..|pat|] == pat {
      ReplaceNoLonger(s[|pat|..], pat, rep);
    } else {
      ReplaceNoLonger(s[1..], pat, rep);
    }
  }

  /** Replacing with a pattern whose first character occurs nowhere in `s`
      changes nothing. */
  lemma {:induction false} ReplaceAbsent(s: string, pat: string, rep: string)
    requires |pat| > 0
    requires forall i :: 0 <= i < |s| ==> s[i] != pat[0]
    ensures Replace(s, pat, rep) == s
    decreases |s|
  {
    if |s| < |pat| {
    } else {
      assert s[..|pat|][0] == s[0];
      ReplaceAbsent(s[1..], pat, rep);
      assert [s[0]] + s[1..] == s;
    }
  }

  // ---------------------------------------------------------------------
  // str.split() and sep.join()
  // ---------------------------------------------------------------------

  /** Length of the run of non-whitespace characters that `s` starts with. */
  function WordLength(s: string): (n: nat)
    ensures n <= |s|
    ensures forall i :: 0 <= i < n ==> !IsSpace(s[i])
    ensures n == |s| || IsSpace(s[n])
  {
    if |s| == 0 || IsSpace(s[0]) then 0 else 1 + WordLength(s[1..])
  }

  /** A word as `str.split()` produces it: non-empty, without whitespace. */
  predicate IsWord(w: string) {
    |w| > 0 && forall i :: 0 <= i < |w| ==> !IsSpace(w[i])
  }

  /** `s.split()` with no separator: the maximal runs of non-whitespace
      characters, in order; leading, trailing and repeated whitespace yields
      no empty words. */
  function Words(s: string): (ws: seq<string>)
    ensures forall i :: 0 <= i < |ws| ==> IsWord(ws[i])
    decreases |s|
  {
    if |s| == 0 then []
    else if IsSpace(s[0]) then Words(s[1..])
    else
      var n := WordLength(s);
      [s[..n]] + Words(s[n..])
  }

  /** The summed lengths of the parts. */
  function TotalLength(parts: seq<string>): nat {
    if |parts| == 0 then 0 else |parts[0]| + TotalLength(parts[1..])
  }

  /** `sep.join(parts)`. */
  function Join(parts: seq<string>, sep: string): string
  {
    if |parts| == 0 then ""
    else if |parts| == 1 then parts[0]
    else parts[0] + sep + Join(parts[1..], sep)
  }

  /** The joined text is as long as the parts together plus one separator
      between each two neighbours. */
  lemma {:induction false} JoinLength(parts: seq<string>, sep: string)
    requires |parts| > 0
    ensures |Join(parts, sep)| == TotalLength(parts) + (|parts| - 1) * |sep|
    decreases |parts|
  {
    if |parts| > 1 {
      JoinLength(parts[1..], sep);
    }
  }

  /** Joining one more part adds the separator and the part at the end. */
  lemma {:induction false} JoinSnoc(parts: seq<string>, last: string, sep: string)
    requires |parts| > 0
    ensures Join(parts + [last], sep) == Join(parts, sep) + sep + last
    decreases |parts|
  {
    if |parts| == 1 {
      assert parts + [last] == [parts[0], last];
      assert [parts[0], last][1..] == [last];
    } else {
      assert (parts + [last])[1..] == parts[1..] + [last];
      JoinSnoc(parts[1..], last, sep);
    }
  }

  // ---------------------------------------------------------------------
  // Properties of whitespace layout
  // ---------------------------------------------------------------------

  /** The only whitespace character present is the plain space. */
  ghost predicate OnlyPlainSpaces(s: string) {
    forall i :: 0 <= i < |s| ==> IsSpace(s[i]) ==> s[i] == ' '
  }

  /** No two spaces are adjacent. */
  ghost predicate NoDoubleSpace(s: string) {
    forall i :: 0 <= i < |s| - 1 ==> s[i] == ' ' ==> s[i + 1] != ' '
  }

  /** No space stands immediately before the character `p`. */
  ghost predicate NoSpaceBefore(s: string, p: char) {
    forall i :: 0 <= i < |s| - 1 ==> s[i] == ' ' ==> s[i + 1] != p
  }

  /** Whitespace-normal text: no leading or trailing whitespace, and words
      separated by exactly one plain space. */
  ghost predicate Collapsed(s: string) {
    && OnlyPlainSpaces(s)
    && NoDoubleSpace(s)
    && (|s| > 0 ==> s[0] != ' ' && s[|s| - 1] != ' ')
  }

  /** `" ".join(words)` of genuine words is whitespace-normal, and non-empty
      exactly when there is a word. */
  lemma {:induction false} JoinWordsCollapsed(ws: seq<string>)
    requires forall i :: 0 <= i < |ws| ==> IsWord(ws[i])
    ensures Collapsed(Join(ws, " "))
    ensures |Join(ws, " ")| > 0 <==> |ws| > 0
    decreases |ws|
  {
    if |ws| == 0 {
    } else if |ws| == 1 {
      assert IsWord(ws[0]);
    } else {
      var w := ws[0];
      assert IsWord(w);
      var rest := Join(ws[1..], " ");
      JoinWordsCollapsed(ws[1..]);
      var s := w + " " + rest;
      assert Join(ws, " ") == s;
      forall i | 0 <= i < |s| && IsSpace(s[i])
        ensures s[i] == ' '
      {
        if i > |w| {
          assert s[i] == rest[i - |w| - 1];
        }
      }
      forall i | 0 <= i < |s| - 1 && s[i] == ' '
        ensures s[i + 1] != ' '
      {
        if i == |w| {
          assert s[i + 1] == rest[0];
        } else if i > |w| {
          assert s[i] == rest[i - |w| - 1];
          assert s[i + 1] == rest[i - |w|];
        }
      }
      assert s[0] == w[0];
      assert s[|s| - 1] == rest[|rest| - 1];
    }
  }

  // ---------------------------------------------------------------------
  // Significant characters
  // ---------------------------------------------------------------------

  /** The characters of `s` other than whitespace and backslashes, in order:
      what none of the clean-up steps may remove or reorder. */
  function Significant(s: string): string
  {
    if |s| == 0 then ""
    else (if IsSpace(s[0]) || s[0] == '\\' then "" else [s[0]]) + Significant(s[1..])
  }

  lemma {:induction false} SignificantConcat(a: string, b: string)
    ensures Significant(a + b) == Significant(a) + Significant(b)
    decreases |a|
  {
    if |a| == 0 {
      assert a + b == b;
    } else {
      assert (a + b)[1..] == a[1..] + b;
      SignificantConcat(a[1..], b);
    }
  }

  /** One step of `Join`: the first part, then the separator and the rest. */
  lemma JoinCons(w: string, ws: seq<string>, sep: string)
    ensures Join([w] + ws, sep) == if |ws| == 0 then w else w + (sep + Join(ws, sep))
  {
    assert ([w] + ws)[1..] == ws;
  }

  /** `s.split()` peels the leading word off `s`; the rest starts with
      whitespace or is empty. */
  lemma {:induction false} SplitFirstWord(s: string)
    requires |s| > 0 && !IsSpace(s[0])
    ensures var n := WordLength(s);
      && s == s[..n] + s[n..]
      && Words(s) == [s[..n]] + Words(s[n..])
      && (n < |s| ==> IsSpace(s[n]) && Words(s[n..]) == Words(s[n + 1..]))
  {
    var n := WordLength(s);
    if n < |s| {
      WordsAfterSpace(s[n..]);
      assert s[n..][1..] == s[n + 1..];
    }
  }

  /** Leading whitespace yields no word. */
  lemma WordsAfterSpace(t: string)
    requires |t| > 0 && IsSpace(t[0])
    ensures Words(t) == Words(t[1..])
  {
  }

  /** A word followed by nothing or by whitespace is the first thing
      `str.split()` yields. */
  lemma {:induction false} WordLengthOfWord(w: string, t: string)
    requires forall i :: 0 <= i < |w| ==> !IsSpace(w[i])
    requires t == [] || IsSpace(t[0])
    ensures WordLength(w + t) == |w|
    decreases |w|
  {
    if |w| == 0 {
      assert w + t == t;
    } else {
      assert (w + t)[0] == w[0];
      assert (w + t)[1..] == w[1..] + t;
      WordLengthOfWord(w[1..], t);
    }
  }

  /** Splitting a word followed by nothing or by whitespace yields that
      word, then the words of the rest. */
  lemma WordsAfterWord(w: string, t: string)
    requires IsWord(w)
    requires t == [] || IsSpace(t[0])
    ensures Words(w + t) == [w] + Words(t)
  {
    var s := w + t;
    WordLengthOfWord(w, t);
    assert s[0] == w[0];
    assert s[..|w|] == w && s[|w|..] == t;
  }

  /** `" ".join(words).split()` gives the words back: splitting undoes
      joining with single spaces. */
  lemma {:induction false} WordsJoinRoundTrip(ws: seq<string>)
    requires forall i :: 0 <= i < |ws| ==> IsWord(ws[i])
    ensures Words(Join(ws, " ")) == ws
    decreases |ws|
  {
    if |ws| == 1 {
      assert IsWord(ws[0]);
      WordsAfterWord(ws[0], "");
      assert ws[0] + "" == ws[0];
    } else if |ws| > 1 {
      var rest := Join(ws[1..], " ");
      assert IsWord(ws[0]);
      JoinCons(ws[0], ws[1..], " ");
      assert [ws[0]] + ws[1..] == ws;
      WordsAfterWord(ws[0], " " + rest);
      assert (" " + rest)[1..] == rest;
      WordsJoinRoundTrip(ws[1..]);
    }
  }

  /** Collapsing whitespace with `" ".join(s.split())` keeps every
      significant character. */
  lemma {:induction false} JoinWordsKeepsSignificant(s: string)
    ensures Significant(Join(Words(s), " ")) == Significant(s)
    decreases |s|
  {
    if |s| == 0 {
    } else if IsSpace(s[0]) {
      JoinWordsKeepsSignificant(s[1..]);
    } else {
      var n := WordLength(s);
      SplitFirstWord(s);
      var w, r := s[..n], s[n..];
      SignificantConcat(w, r);
      JoinCons(w, Words(r), " ");
      if n == |s| {
        assert r == "";
      } else {
        assert r[1..] == s[n + 1..];
        assert Words(r) == Words(r[1..]);
        var j := Join(Words(r[1..]), " ");
        JoinWordsKeepsSignificant(r[1..]);
        assert r == [r[0]] + r[1..];
        SignificantConcat([r[0]], r[1..]);
        if |Words(r)| > 0 {
          SignificantConcat(w, " " + j);
          SignificantConcat(" ", j);
        } else {
          assert Significant(j) == "";
        }
      }
    }
  }

  /** Collapsing whitespace never lengthens the text. */
  lemma {:induction false} JoinWordsNoLonger(s: string)
    ensures |Join(Words(s), " ")| <= |s|
    decreases |s|
  {
    if |s| == 0 {
    } else if IsSpace(s[0]) {
      JoinWordsNoLonger(s[1..]);
    } else {
      var n := WordLength(s);
      SplitFirstWord(s);
      JoinCons(s[..n], Words(s[n..]), " ");
      if n < |s| {
        JoinWordsNoLonger(s[n + 1..]);
      }
    }
  }
}

=== FILE: wrappers.dfy ===
/** Failure-carrying datatypes used across the model: `Option` for values a
    lookup or a parser may not produce, `Result` for operations that raise in
    the Python program. */
module Wrappers {

  datatype Option<+T> = None | Some(value: T)

  /** `Failure` stands for a Python exception raised by the operation. */
  datatype Result<+T, +E> = Success(value: T) | Failure(error: E)
}
